=== FILE: README.md ===
# Token revocation in BaseApi, modelled in Dafny

BaseApi is a small ASP.NET authentication backend: users register, log in to
receive a JWT that expires two hours later, and log out. Logging out puts the
token on a blacklist held in the process memory cache, under the key
`"blacklist_" + token`, with a lifetime equal to the token's remaining
validity. A middleware consults that blacklist on every request whose path is
not under `/api/auth`, `/swagger` or `/health`. It answers 401 for a revoked
token sent as `Bearer <token>`, before the framework's own JWT validation
runs. It removes the scheme word case-sensitively and does not trim, so the
same token sent as `bearer <token>` or `Bearer  <token>` is looked up under
another text and passed on (see Findings). The health endpoint the
application maps is `/api/health`, so it is gated; nothing is mapped under
`/health`. Every route of the auth controller, `/api/auth/me` included, is
skipped.

This project models that core as immutable data and pure functions:

- `Jwt`: the claim set of an issued token and an abstract token handler
  (`Codec`): `write` serialises and signs, `read` parses without checking the
  signature. The one assumption made of it (`Jwt.Sound`) is that reading back
  a written token gives its claims and that a written token is non-empty and
  holds no space.
- `Passwords`: BCrypt as an abstract `hash`/`verify` pair, with the
  assumption that a password verifies against any of its hashes. The random
  salt is a parameter.
- `Users`: the `User` entity and the user table as a sequence plus the next
  identity value; the primary key and the unique username and email indexes
  are the invariant `Users.Valid`.
- `AuthService`: token issuance, the embedded-expiry reader, the memory cache
  (a map from key to absolute expiry instant, an entry being visible strictly
  before its expiry) and the blacklist operations on it.
- `Bearer`: the token extraction `header.Replace("Bearer ", "")`, shared by
  the middleware and the controller.
- `Text`: the ordinal case-insensitive comparison used for paths and, in the
  corrected extraction, for the scheme word; and white-space trimming, used by
  `int.TryParse` and by the corrected extraction.
- `TokenValidationMiddleware`: the skip list (`StartsWithSegments`, ignoring
  case) and the per-request decision `CallNext | Reject401`.
- `AuthController`: register, login, logout, validate and current-user as
  transitions that return an HTTP reply and the new table or cache.
- `Decimal`: `int.ToString()` and `int.TryParse`, which carry the user id
  into the token and back out of it.
- `Scenarios`: properties that span several operations.

Time is one abstract clock in whole seconds since the Unix epoch (`Jwt.Time`).
The model's issuer reads that one clock in UTC: a token issued at `now`
expires at `now + 7200`, as `DateTime.UtcNow.AddHours(2)` would give. The
source adds the two hours to the local time `DateTime.Now`, and the token
library converts the result to UTC afterwards. The two agree unless the local
clock changes within the two hours; across a daylight-saving change the
embedded expiry is one hour early or late, while login still reports
`expiresIn` 7200 (see Findings). `AuthService.LocalClockExpiry` models the
local-time computation over an explicit time zone. Revocation reads
`DateTime.UtcNow` in the source too.

Points of the code worth stating plainly:
- the cache key of a revoked token is the token text with the prefix
  `blacklist_`;
- the 401 the middleware writes carries the error `"Token invalidado"`;
- login reports an unknown user and a wrong password with different messages;
- the signing key is checked both at startup and on every issuance;
- a token issued at the current second is not always unrevoked, and a revoked
  token still reaches `/api/auth/me` (see Findings).

## Model

| member | source | states |
|---|---|---|
| Passwords.HashPassword | Services/AuthService.cs:22-25 | with a sound hasher, the password it was given verifies against the digest it returns |
| Passwords.VerifyPassword | Services/AuthService.cs:27-30 | with a sound hasher, a password is accepted against every digest made from it, whatever the salt |
| AuthService.TokenClaims | Services/AuthService.cs:39-56 | the claims of an issued token: the id and level as decimal text that parses back to them, the username and email as given, and an expiry two hours after issuance that the token format can hold |
| AuthService.GenerateJwtToken | Services/AuthService.cs:32-58 | fails, within the model, exactly when the signing key is missing or empty; otherwise the token reads back, without a signature check, with the user's decimal id as name identifier, the username as name, and an expiry of now plus 7200 seconds |
| AuthService.GetTokenExpiry | Services/AuthService.cs:87-98 | never fails; gives the embedded expiry exactly when the token parses, `DateTime.MinValue` for a parseable token without `exp`, and nothing for garbage |
| AuthService.Set | Services/AuthService.cs:78 | the memory cache's relative-expiry `Set`: the entry, replacing any earlier one, is visible at exactly the instants before now plus the lifetime; every other key is untouched |
| AuthService.TryGetValue | Services/AuthService.cs:63 | the memory cache lookup: a key never set is never found, and a set key is found exactly before its expiry instant |
| AuthService.ExpiredStaysAbsent | Services/AuthService.cs:63 | expiry is final: an entry absent at one instant is absent at every later instant |
| AuthService.IsTokenInvalidated | Services/AuthService.cs:61-64 | a token reads as revoked exactly when some unexpired entry is a blacklist key naming that very token; other keys and expired entries play no part |
| AuthService.LiveKeyNamesToken | Services/AuthService.cs:63 | the token's own blacklist key is the only key whose entry can mark it revoked |
| AuthService.BlacklistKeyInjective | Services/AuthService.cs:63 | two tokens share a blacklist key if and only if they are the same token |
| AuthService.BlacklistKeyRoundTrip | Services/AuthService.cs:63 | the token text can be recovered from its blacklist key, and a blacklist key is rebuilt from the token it names |
| AuthService.InvalidateToken | Services/AuthService.cs:66-85 | an unparseable token or one already expired leaves the cache equal to what it was; otherwise the token reads as revoked at exactly the instants before its embedded expiry, the entry's lifetime being the remaining validity; no other key and no other token's status changes |
| AuthService.InvalidatePreservesWellFormed | Services/AuthService.cs:72-78 | revocation keeps the invariant that every cache entry is a blacklist entry expiring exactly when the token it names expires |
| AuthService.RevocationNeverOutlivesToken | Services/AuthService.cs:61-64 | in a cache with that invariant, a token reads as revoked only before its own embedded expiry |
| AuthService.InvalidateIdempotent | Services/AuthService.cs:78 | revoking the same token again, at the same or a later instant, leaves the cache exactly as one revocation did |
| Jwt.WriteInjective | Services/AuthService.cs:50-58 | with a sound token handler, different claim sets never serialise to the same token |
| Decimal.Int32ToString | Services/AuthService.cs:41 | the text is non-empty, starts with '-' exactly for negative numbers, and is otherwise all digits |
| Decimal.TryParseInt32 | Controllers/AuthController.cs:137 | a successful parse yields a 32-bit value and the text held at least one digit |
| Decimal.ParseInt32RoundTrip | Controllers/AuthController.cs:135-137 | parsing the text `ToString` writes for a 32-bit integer gives that integer back |
| Decimal.DigitsValueOfNatToDigits | Services/AuthService.cs:41 | the digit string written for a natural number denotes that number |
| Users.FirstWhere | Controllers/AuthController.cs:64 | finds the first row satisfying the condition, and nothing only when no row does |
| Users.FindByUsername | Controllers/AuthController.cs:64 | finds a stored row with that username exactly when one exists |
| Users.FindById | Controllers/AuthController.cs:140 | finds a stored row with that id, and nothing exactly when no row has it |
| Users.AnyUsername | Controllers/AuthController.cs:34 | true exactly when some stored row has that username |
| Users.AnyEmail | Controllers/AuthController.cs:37 | true exactly when some stored row has that email |
| Users.StoredLevel | Data/AppDbContext.cs:31-33 | the level a new row gets is never 0: a requested 0 becomes exactly the column default 1, any other level is kept |
| Users.Insert | Controllers/AuthController.cs:48-49 | fails exactly when the next identity value no longer fits the 32-bit `int` id of Models/User.cs:7 or the username is longer than the 100 characters of Data/AppDbContext.cs:21-23, or the email is longer than 450 characters, the width an indexed string without a declared length gets (Data/AppDbContext.cs:28-29, 36-40); otherwise appends exactly one row with that identity, the given username, hash and email, and the level with 0 replaced by the column default 1 (Data/AppDbContext.cs:31-33), keeps every earlier row, and keeps the key and unique indexes when the username and email are new |
| Users.InsertKeepingLevel | Data/AppDbContext.cs:31-33 | corrected insert: fails exactly when `Insert` does, stores the requested level as given, 0 included, and equals `Insert` for every other level |
| Users.FindStoredUser | Data/AppDbContext.cs:36-40 | under the unique indexes, a stored user is the one found by its username and the one found by its id |
| Bearer.RemoveAll | Middleware/TokenValidationMiddleware.cs:28 | removing the scheme word never lengthens the header |
| Bearer.RemoveAllShrinks | Middleware/TokenValidationMiddleware.cs:28 | when the pattern occurs anywhere, the removal makes the text strictly shorter |
| Bearer.RemoveAllNoOccurrence | Middleware/TokenValidationMiddleware.cs:28 | when the pattern does not occur, the removal returns the text unchanged |
| Bearer.RemoveAllIdentityIff | Middleware/TokenValidationMiddleware.cs:28 | the extraction leaves a header unchanged if and only if "Bearer " does not occur in it |
| Bearer.NoSpaceNoScheme | Middleware/TokenValidationMiddleware.cs:28 | text without a space cannot contain the scheme word "Bearer " |
| Bearer.ExtractAfterScheme | Middleware/TokenValidationMiddleware.cs:28 | the header `Bearer X` yields `X` whenever `X` holds no "Bearer " |
| Bearer.LowercaseSchemeKept | Middleware/TokenValidationMiddleware.cs:28 | the removal is case-sensitive: `bearer X` comes through whole |
| Bearer.ExtractToken | Middleware/TokenValidationMiddleware.cs:28 | the extracted token is never longer than the header, and is the header itself exactly when "Bearer " does not occur in it |
| TokenValidationMiddleware.StartsWithSegments | Middleware/TokenValidationMiddleware.cs:20-22 | a path matches a prefix exactly when it equals the prefix, ignoring case, or continues it with a '/' and further segments |
| TokenValidationMiddleware.SegmentBoundaryIff | Middleware/TokenValidationMiddleware.cs:20-22 | a case-insensitive prefix match ending at the end of the path or at a '/' is the same as a whole-segment match |
| TokenValidationMiddleware.IsSkipped | Middleware/TokenValidationMiddleware.cs:20-22 | a path is skipped exactly when it is `/api/auth`, `/swagger` or `/health`, ignoring case, or lies in a further segment under one of them |
| TokenValidationMiddleware.SkipListIff | Middleware/TokenValidationMiddleware.cs:20-22 | the three tests of the skip list are the segment matches against the list of skipped prefixes |
| TokenValidationMiddleware.SkippedPathExamples | Middleware/TokenValidationMiddleware.cs:20-22 | `/api/auth`, `/api/auth/login`, `/API/Auth/logout`, `/api/auth/me`, `/swagger/...` and `/health` are skipped |
| TokenValidationMiddleware.GatedPathExamples | Middleware/TokenValidationMiddleware.cs:20-22 | `/api/authors`, the health endpoint `/api/health` and `/api/users` are gated |
| TokenValidationMiddleware.InvokeAsync | Middleware/TokenValidationMiddleware.cs:16-46 | exactly one of pass-on and 401 per request: 401 if and only if the path is gated, the extracted token is non-empty and it is blacklisted; skipped paths and empty tokens always pass; the cache is only read |
| AuthController.Register | Controllers/AuthController.cs:32-56 | a taken username is refused first and a taken email second, both leaving the table as it was; an exhausted 32-bit identity, a username over 100 characters or an email over 450 characters gives 500 and leaves the table as it was; it succeeds exactly when the username and email are new, the identity fits and the username and email fit their columns, and then exactly one row is appended with the submitted username and email, the submitted level or 1 in place of a submitted 0, a fresh id and a hash the password verifies against, earlier rows unchanged and uniqueness kept |
| AuthController.Login | Controllers/AuthController.cs:62-79 | an unknown username and a wrong password are refused, with their own messages and no token; success only for a stored user whose password verifies, with that user's public fields, `expiresIn` 7200 and a token expiring two hours on; a missing key makes it fail with 500 |
| AuthController.Logout | Controllers/AuthController.cs:85-99 | without a token the request is refused and the cache kept; otherwise the extracted token is revoked and the call succeeds |
| AuthController.ValidateToken | Controllers/AuthController.cs:105-127 | no token gives 400; a blacklisted token gives 401 (`valid = false`); every other non-empty token gives 200, valid, with its embedded expiry, which is absent for garbage |
| AuthController.GetCurrentUser | Controllers/AuthController.cs:133-151 | a missing claim or one that does not parse as a 32-bit integer gives 401; a claim that parses gives 200 or 404 and nothing else; success names a stored user whose id is the parsed claim; 404 only when no stored user has that id |
| Scenarios.RegisterThenLogin | Controllers/AuthController.cs:40-77 | a user who has just registered logs in with the same password and receives the new row's public fields and `expiresIn` 7200 |
| Scenarios.DuplicateRegistrationRefused | Controllers/AuthController.cs:34-35 | registering a username a second time is refused and adds no second row |
| Scenarios.CurrentUserOfIssuedToken | Controllers/AuthController.cs:135-150 | the identifier claim of a login token parses back to the row it was issued for, so the current-user endpoint returns that user |
| Scenarios.IssuedTokenExtracts | Middleware/TokenValidationMiddleware.cs:28 | an issued token comes out of `Bearer <token>` unchanged and is non-empty |
| Scenarios.LogoutRejectsUntilExpiry | Middleware/TokenValidationMiddleware.cs:28-41 | after logout with a header, the gate answers 401 to that header on any gated path at exactly the instants before the token's embedded expiry |
| Scenarios.GateAgreesWithValidate | Middleware/TokenValidationMiddleware.cs:30-41 | on a gated path the middleware answers 401 exactly when the validate endpoint reports the token revoked |
| Scenarios.SessionLifecycle | Services/AuthService.cs:54-78 | before logout the validate endpoint accepts a token issued now and reports its expiry two hours on; after logout it is revoked now and 7199 seconds later, through the gate as well, and no longer at 7200 seconds |
| Scenarios.SameSecondReloginIsRevoked | Services/AuthService.cs:39-58 | as written: login, logout, login again in the same second returns the token just revoked, and the gate answers 401 to it |
| AuthService.GenerateJwtTokenWithId | Services/AuthService.cs:32-58 | corrected issuer with a `jti` claim: same failure rule and expiry as the source's issuer, and the identifier reads back |
| Scenarios.FreshIdSurvivesEarlierLogout | Services/AuthService.cs:39-58 | with distinct `jti` values two tokens of the same second differ, and logging out the first leaves the second's status unchanged |
| TokenValidationMiddleware.CurrentUserNeverGated | Middleware/TokenValidationMiddleware.cs:20-26 | as written: a request for `/api/auth/me` is passed on whatever token it carries |
| TokenValidationMiddleware.IsSkippedCorrected | Middleware/TokenValidationMiddleware.cs:20-22 | corrected skip list: the same as the source's on every path outside `/api/auth/me`, and never skips `/api/auth/me` |
| TokenValidationMiddleware.InvokeAsyncCorrected | Middleware/TokenValidationMiddleware.cs:16-46 | the gate over the corrected skip list: the source's decision on every path outside `/api/auth/me`, and 401 exactly for a gated path with a non-empty blacklisted token |
| TokenValidationMiddleware.CorrectedGateStopsRevokedAtCurrentUser | Middleware/TokenValidationMiddleware.cs:28-41 | with the corrected skip list, a revoked token is answered 401 at `/api/auth/me` |
| Scenarios.LoggedOutTokenStillReadsCurrentUser | Controllers/AuthController.cs:133-151 | as written: after logout the revoked token passes the gate at `/api/auth/me` and its identifier claim still yields the user's profile; the corrected gate answers 401 to the same request |
| Bearer.DoubledSpaceKept | Middleware/TokenValidationMiddleware.cs:28 | the removal does not trim: `Bearer  X` yields `X` with a leading space |
| Bearer.ExtractTokenCorrected | Middleware/TokenValidationMiddleware.cs:28 | corrected extraction, as the bearer authentication of Program.cs:42-54 reads the header: no token unless the header starts with the scheme word in some letter case, and a token never starts or ends with white space |
| Bearer.CorrectedExtractionRecoversToken | Middleware/TokenValidationMiddleware.cs:28 | the corrected extraction gives back the token after the scheme word in any letter case and any run of white space |
| Text.TrimmedEnds | Program.cs:42-54 | trimming, as the bearer authentication does to the text after the scheme word, leaves no white space at either end |
| Text.TrimStartWhitePrefix | Program.cs:42-54 | trimming removes exactly a white-space run in front of a token that starts with no white space |
| TokenValidationMiddleware.InvokeAsyncSchemeCorrected | Middleware/TokenValidationMiddleware.cs:16-46 | the gate over the corrected extraction: the source's decision wherever both extractions agree, and 401 exactly for a gated path whose corrected token is non-empty and blacklisted |
| TokenValidationMiddleware.CorrectedSchemeStopsRevoked | Middleware/TokenValidationMiddleware.cs:28-41 | with the corrected extraction a revoked token is answered 401 on a gated path under the scheme word in any case after any white space |
| Scenarios.SchemeVariantsBypassGate | Middleware/TokenValidationMiddleware.cs:28-41 | as written: after logout the token is revoked, yet the gate passes it on under `bearer ` and under `Bearer ` followed by a second space |
| Scenarios.CorrectedGateStopsSchemeVariants | Middleware/TokenValidationMiddleware.cs:28-41 | the gate with the corrected extraction answers 401 to the logged-out token under both variants |
| Scenarios.BothVariantsStopped | Middleware/TokenValidationMiddleware.cs:28-41 | in any cache where a token is revoked, the gate with the corrected extraction answers 401 to `bearer <token>` and to `Bearer  <token>` on a gated path |
| Scenarios.AdminLevelRegistersAsDefault | Controllers/AuthController.cs:40-55 | as written: registering level 0 on a fresh database answers 200, but the stored row, the login reply and the token's role claim carry level 1 |
| AuthService.LocalClockExpiry | Services/AuthService.cs:54 | the expiry as the source computes it, two hours added to the local time and converted back to UTC: in a zone with a fixed offset it is issuance plus 7200 seconds |
| AuthService.ClockChangeShortensToken | Services/AuthService.cs:54 | as written: issued within the two hours before a spring-forward change of one hour, the token expires 3600 seconds after issuance, not 7200 |
| AuthService.ClockChangeLengthensToken | Services/AuthService.cs:54 | as written: issued within the two hours before a fall-back change of one hour, the token expires 10800 seconds after issuance, not 7200 |
| AuthService.InvalidateTokenCoveringSkew | Services/AuthService.cs:66-85 | corrected revocation: the token reads as revoked at every instant from now on at which the bearer authentication, with its default five-minute clock skew, still accepts its lifetime; no other key changes |
| Scenarios.RevokedTokenAuthenticatesWithinSkew | Program.cs:44-53 | as written: after logout the token is revoked now, yet from its expiry to five minutes after it the gate passes it on while the default clock skew still accepts its lifetime |
| Scenarios.CoveringSkewStopsRevokedToken | Services/AuthService.cs:72-78 | with the corrected revocation, the gate answers 401 on a gated path at every instant the lifetime check with clock skew would still accept the token |
| Scenarios.LowercaseSchemeSkipsBlacklist | Middleware/TokenValidationMiddleware.cs:28-33 | a revoked token is answered 401 under `Bearer ` but passed on under `bearer `, because the lookup then uses the text with the scheme word still on it |

## Left out

- Program.cs: service registration, the framework's JWT bearer validation, Swagger, logging, migrations and endpoint maps are framework wiring. The startup refusal at Program.cs:32-35 is the same condition as the issuer's failure case.
- Data/AppDbContext.cs and Data/DatabaseInitializer.cs: the schema and migrations are replaced by the invariant `Users.Valid`, the Username length limit and the Level default. The database collation is not modelled: usernames and emails are compared ordinally, while SQL Server's default collation ignores case.
- A race between two registrations of the same name, which the unique index turns into an exception, is not modelled: transitions are sequential.
- The request DTO classes are not part of this model; their validation attributes, and the automatic 400 they can cause, are left out.
- JWT serialisation and HMAC-SHA256 signing (section 3.2 of RFC 7518) belong to a foreign library and are abstract in `Jwt.Codec`. Conversions inside that library are not modelled, such as the clamping of extreme `exp` values. An empty issuer or audience is read as the claim being absent.
- BCrypt is abstract. `Verify` throwing on a malformed stored hash is not modelled, because every stored hash comes from `HashPassword`.
- The memory cache's eviction, size limits and thread safety are left out. Expired entries stay in the map and read as absent.
- Clock resolution below one second is not modelled. Neither is the overflow of `AddHours(2)` near `DateTime.MaxValue`: the issuance lemmas assume `AuthService.IssuableAt`.
- Async execution, response writing, content types and JSON serialisation are left out. Only the status and error text of each reply are modelled. Success bodies keep their data fields but not their constant message texts.
- The `Authorization` header is modelled as one string, with a missing header read as "". Joining several header values with commas is not modelled.
- Users.Insert: the Email column declares no length; the limit of 450 is the width the SQL Server provider gives an indexed string without one, and the migrations that fix it are not part of this model. Username and email lengths are counted in characters, where the database counts UTF-16 code units.
- AuthController.Register: its 500 for an over-long email rests on that same assumed width of 450.
- AuthService.GenerateJwtToken: the expiry is computed from the UTC clock, as the corrected issuer would. It equals the source's local-time computation only when no change of the local clock falls within the two hours; `AuthService.LocalClockExpiry` models the source's computation, and `AuthController.Login` and `Scenarios.SessionLifecycle` inherit the UTC expiry.
- Time zones are modelled as a pair of conversion functions; only a fixed offset and a single one-hour spring-forward change are given, not the rules of any real zone.
- Bearer.ExtractTokenCorrected: it trims the white-space set of `int.TryParse` (space and U+0009 to U+000D). The framework's `Trim()` also removes other Unicode spaces.
- Case-insensitive path matching is modelled for ASCII letters only. Non-ASCII characters whose upper-case form is an ASCII letter are treated as not matching.
- `int.TryParse`: trailing NUL characters and culture-specific sign symbols are not modelled.
- `GetCurrentUser` reads its claim from the principal the framework built from a validated token. The claim value is an input to the model.
- The controller's unused memory-cache field is left out.
- AuthService.GenerateJwtToken: of the claims written, the contract names the identifier, name and expiry; `AuthService.TokenClaims` states the email and role as well, and the issuer and audience are written as in the source but not stated.
- AuthService.GenerateJwtToken: signing failures inside the token library are not modelled, such as the exception HMAC-SHA256 signing raises for a key below the minimum size the library accepts. The model fails only for a missing or empty key.
- AuthService.TokenClaims: the role claim is promised to parse back to the level only for a 32-bit level; `Users.Valid` bounds ids to 32 bits but not levels, which come from the request unchanged.

## Findings

| source | as written | input that shows it | evidently intended | confidence | as-written member | corrected member |
|---|---|---|---|---|---|---|
| Services/AuthService.cs:39-58 | The token carries only the user's fields, issuer, audience and an expiry in whole seconds. Two issuances for the same user in the same second give the same token string. | A user logs in at second t, logs out with that token at t, and logs in again at t: the second login returns the token just blacklisted. | A freshly issued token is not already revoked. | medium, not executed | Scenarios.SameSecondReloginIsRevoked | Scenarios.FreshIdSurvivesEarlierLogout |
| Middleware/TokenValidationMiddleware.cs:20-22 | The gate skips every path under `/api/auth`, which includes `GET /api/auth/me`. Authentication runs after the gate (Program.cs:137-139) and checks signature, issuer, audience and lifetime, never the blacklist. | A user logs out and then calls `GET /api/auth/me` with the same, unexpired token: the gate passes it on and the endpoint returns the user's profile. | A revoked token is refused on every route that reads the caller's identity. | medium, not executed | Scenarios.LoggedOutTokenStillReadsCurrentUser | TokenValidationMiddleware.CorrectedGateStopsRevokedAtCurrentUser |
| Middleware/TokenValidationMiddleware.cs:28 | The gate removes "Bearer " ordinally and does not trim. The bearer authentication that runs next (Program.cs:42-54, 139) matches the scheme ignoring case and trims the rest. | A user logs out, then sends the same unexpired token as `bearer <token>` or `Bearer  <token>` to a gated route: the gate looks up another text and passes it on, and authentication accepts the token. | A revoked token is refused however the header spells the scheme. | medium, not executed | Scenarios.SchemeVariantsBypassGate | TokenValidationMiddleware.CorrectedSchemeStopsRevoked |
| Services/AuthService.cs:54 | The expiry is `DateTime.Now.AddHours(2)`: two hours are added to the local wall clock, and the library converts the result to UTC. | In a zone that moves its clock forward one hour at 02:00, a token issued at 01:30 local time expires 3600 seconds later, although login reports `expiresIn` 7200; a token issued before a fall-back change lives 10800 seconds. | A token lives exactly two hours, as `DateTime.UtcNow.AddHours(2)` gives. | medium, not executed | AuthService.ClockChangeShortensToken | AuthService.GenerateJwtToken |
| Program.cs:44-53 | Bearer authentication validates the lifetime with the default clock skew of 300 seconds, so it accepts a token until five minutes after its `exp`. Revocation (Services/AuthService.cs:72-78) keeps the blacklist entry only until `exp`. | A user logs out, then sends the same token to a gated route within five minutes after its expiry: the blacklist entry has lapsed, the gate passes it on, and authentication still accepts the token. | A revoked token is refused for as long as authentication would accept it. | medium, not executed | Scenarios.RevokedTokenAuthenticatesWithinSkew | AuthService.InvalidateTokenCoveringSkew |
| Data/AppDbContext.cs:31-33 | The Level column has the database default 1. The insert leaves out an `int` property equal to 0, so the default applies. | Registering with level 0, the administrator level of Models/User.cs:18, answers 200, but the row holds level 1, and login returns level 1 and role claim "1". | A requested level is stored as given, so an administrator can be registered. | medium, not executed | Scenarios.AdminLevelRegistersAsDefault | Users.InsertKeepingLevel |

The corrected issuer is `AuthService.GenerateJwtTokenWithId`. It adds a unique
token identifier (the `jti` claim of section 4.1.7 of RFC 7519) and otherwise
behaves like the source's issuer. `Scenarios.FreshIdSurvivesEarlierLogout`
proves that logging out one session leaves a same-second session with a
different identifier untouched. `AuthController.Login` keeps the source's
issuer so that the controller model matches the code as written.

The corrected gate is `TokenValidationMiddleware.InvokeAsyncCorrected`. It
takes `/api/auth/me` out of the skip list and decides every other path as the
source does. `TokenValidationMiddleware.InvokeAsync` keeps the source's skip
list.

The gate with the corrected extraction is
`TokenValidationMiddleware.InvokeAsyncSchemeCorrected`. It reads the token with
`Bearer.ExtractTokenCorrected`, which matches the scheme word ignoring case and
trims the rest, as the bearer authentication after the gate does.

The corrected expiry is the one `AuthService.GenerateJwtToken` computes: it
reads the UTC clock, so every token lives 7200 seconds.
`AuthService.LocalClockExpiry` keeps the source's local-time computation for
the finding; `AuthService.ClockChangeLengthensToken` shows the fall-back case,
a token that lives three hours.

The corrected revocation is `AuthService.InvalidateTokenCoveringSkew`. It keeps
the blacklist entry until five minutes and one second past the embedded expiry,
which covers the default clock skew. `Scenarios.CoveringSkewStopsRevokedToken`
proves the gate then refuses the token wherever authentication would still
accept it. `AuthController.Logout` keeps the source's `InvalidateToken`.

The corrected insert is `Users.InsertKeepingLevel`. It always writes the level,
so level 0 is stored as 0. Admin level 0 cannot be registered through the
register endpoint as written. `AuthController.Register` keeps the source's
behaviour.

=== FILE: auth_controller.dfy ===
/**
 * AuthController: the register, login, logout, validate and current-user
 * endpoints as pure transitions over the user table and the revocation cache.
 */
module AuthController {
  import opened Wrappers
  import opened Jwt
  import Decimal
  import Users
  import Passwords
  import AuthService
  import Bearer

  /** The action results the endpoints return, by HTTP status. */
  datatype Reply<+T> =
    | Ok(body: T)
    | BadRequest(error: string)
    | Unauthorized(error: string)
    | NotFound(error: string)
    | InternalServerError
  {
    function StatusCode(): int {
      match this
      case Ok(_) => 200
      case BadRequest(_) => 400
      case Unauthorized(_) => 401
      case NotFound(_) => 404
      case InternalServerError => 500
    }
  }

  /** A reply together with the state the endpoint leaves behind. */
  datatype Step<+T, +S> = Step(reply: Reply<T>, state: S)

  const UserExists := "El usuario ya existe"
  const EmailTaken := "El email ya está registrado"
  const UserNotFound := "Usuario no encontrado"
  const WrongPassword := "Contraseña incorrecta"
  const NoToken := "No se proporcionó token"
  const TokenInvalidated := "Token invalidado"
  const InvalidToken := "Token inválido"
  const LoggedOut := "Logout exitoso"

  /** The request bodies. */
  datatype UserCreateDto = UserCreateDto(username: string, password: string, email: string, level: int)
  datatype UserLoginDto = UserLoginDto(username: string, password: string)

  /** The public part of a user, as returned by login and by the current-user endpoint. */
  datatype UserView = UserView(id: int, username: string, email: string, level: int)

  function ViewOf(u: Users.User): UserView {
    UserView(u.id, u.username, u.email, u.level)
  }

  datatype RegisteredBody = RegisteredBody(id: int, username: string, email: string)
  datatype LoginBody = LoginBody(token: string, user: UserView, expiresIn: int)
  /** The 200 answer of the validate endpoint, whose `valid` field is always true. */
  datatype ValidBody = ValidBody(expiresAt: Option<Time>)

  /**
   * `Register`: a taken username is refused first, then a taken email; either
   * refusal leaves the table alone. Otherwise exactly one row is appended,
   * holding the submitted fields and a hash the password verifies against,
   * and the uniqueness of usernames, emails and ids is kept; a requested
   * level 0 is stored as the column default 1. An identity overflow, or a
   * username or email longer than its column, makes the save throw (500) and
   * leaves the table alone.
   */
  function Register(store: Users.Store, hasher: Passwords.Hasher, dto: UserCreateDto, salt: string): (s: Step<RegisteredBody, Users.Store>)
    ensures Users.AnyUsername(store, dto.username) ==> s == Step(BadRequest(UserExists), store)
    ensures !Users.AnyUsername(store, dto.username) && Users.AnyEmail(store, dto.email) ==>
      s == Step(BadRequest(EmailTaken), store)
    ensures (&& !Users.AnyUsername(store, dto.username) && !Users.AnyEmail(store, dto.email)
             && (|| !Decimal.IsInt32(store.nextId)
                 || |dto.username| > Users.UsernameMaxLength
                 || |dto.email| > Users.EmailMaxLength)) ==>
      s == Step(InternalServerError, store)
    ensures s.reply.Ok? ==>
      && |s.state.users| == |store.users| + 1
      && s.state.users[..|store.users|] == store.users
      && var u := s.state.users[|store.users|];
      && u.username == dto.username && u.email == dto.email
      && (dto.level != 0 ==> u.level == dto.level)
      && (dto.level == 0 ==> u.level == Users.DefaultLevel)
      && (Passwords.Sound(hasher) ==> hasher.verify(dto.password, u.passwordHash))
      && (Users.Valid(store) ==> forall v :: v in store.users ==> v.id != u.id)
      && s.reply == Ok(RegisteredBody(u.id, u.username, u.email))
    ensures s.reply.Ok? <==>
      && !Users.AnyUsername(store, dto.username) && !Users.AnyEmail(store, dto.email)
      && Decimal.IsInt32(store.nextId) && |dto.username| <= Users.UsernameMaxLength
      && |dto.email| <= Users.EmailMaxLength
    ensures Users.Valid(store) ==> Users.Valid(s.state)
  {
    if Users.AnyUsername(store, dto.username) then Step(BadRequest(UserExists), store)
    else if Users.AnyEmail(store, dto.email) then Step(BadRequest(EmailTaken), store)
    else
      var digest := Passwords.HashPassword(hasher, dto.password, salt);
      match Users.Insert(store, dto.username, digest, dto.email, dto.level)
      case None => Step(InternalServerError, store)
      case Some(next) =>
        var u := next.users[|store.users|];
        Step(Ok(RegisteredBody(u.id, u.username, u.email)), next)
  }

  /**
   * `Login`: an unknown username and a wrong password are refused with
   * distinct messages and no token; a missing signing key makes token
   * generation throw; otherwise the reply carries the user and a token that
   * reads back with an expiry of `now` plus 7200 seconds.
   */
  function Login(store: Users.Store, hasher: Passwords.Hasher, config: AuthService.JwtConfig, codec: Codec,
                 dto: UserLoginDto, now: Time): (r: Reply<LoginBody>)
    ensures Users.FindByUsername(store, dto.username).None? ==> r == Unauthorized(UserNotFound)
    ensures r.Ok? ==>
      && Users.FindByUsername(store, dto.username).Some?
      && var u := Users.FindByUsername(store, dto.username).value;
      && hasher.verify(dto.password, u.passwordHash)
      && r.body.user == ViewOf(u)
      && r.body.expiresIn == AuthService.TokenLifetime
      && (Sound(codec) && AuthService.IssuableAt(now) ==>
            AuthService.GetTokenExpiry(codec, r.body.token) == Some(now + AuthService.TokenLifetime))
    ensures Users.FindByUsername(store, dto.username).Some? ==>
      var u := Users.FindByUsername(store, dto.username).value;
      && (!hasher.verify(dto.password, u.passwordHash) ==> r == Unauthorized(WrongPassword))
      && (hasher.verify(dto.password, u.passwordHash) && !AuthService.KeyConfigured(config) ==> r == InternalServerError)
      && (hasher.verify(dto.password, u.passwordHash) && AuthService.KeyConfigured(config) ==> r.Ok?)
  {
    match Users.FindByUsername(store, dto.username)
    case None => Unauthorized(UserNotFound)
    case Some(u) =>
      if !Passwords.VerifyPassword(hasher, dto.password, u.passwordHash) then Unauthorized(WrongPassword)
      else
        match AuthService.GenerateJwtToken(config, codec, u, now)
        case Failure(_) => InternalServerError
        case Success(token) => Ok(LoginBody(token, ViewOf(u), AuthService.TokenLifetime))
  }

  /**
   * `Logout`: without a token the request is refused and the cache kept;
   * otherwise the extracted token is revoked and the call succeeds, whether
   * or not the token could be parsed.
   */
  function Logout(cache: AuthService.Cache, codec: Codec, authorization: string, now: Time): (s: Step<string, AuthService.Cache>)
    ensures Bearer.ExtractToken(authorization) == "" ==> s == Step(BadRequest(NoToken), cache)
    ensures Bearer.ExtractToken(authorization) != "" ==>
      s == Step(Ok(LoggedOut), AuthService.InvalidateToken(cache, codec, Bearer.ExtractToken(authorization), now))
  {
    var token := Bearer.ExtractToken(authorization);
    if token == "" then Step(BadRequest(NoToken), cache)
    else Step(Ok(LoggedOut), AuthService.InvalidateToken(cache, codec, token, now))
  }

  /**
   * `ValidateToken`: no token is a bad request; a revoked token is
   * unauthorized (`valid = false`); anything else is reported valid with its
   * embedded expiry, which is `None` for an unparseable token; signature and
   * expiry are not checked here.
   */
  function ValidateToken(cache: AuthService.Cache, codec: Codec, authorization: string, now: Time): (r: Reply<ValidBody>)
    ensures Bearer.ExtractToken(authorization) == "" <==> r == BadRequest(NoToken)
    ensures r == Unauthorized(TokenInvalidated) <==>
      Bearer.ExtractToken(authorization) != "" && AuthService.IsTokenInvalidated(cache, Bearer.ExtractToken(authorization), now)
    ensures (Bearer.ExtractToken(authorization) != ""
      && !AuthService.IsTokenInvalidated(cache, Bearer.ExtractToken(authorization), now)) ==>
      r == Ok(ValidBody(AuthService.GetTokenExpiry(codec, Bearer.ExtractToken(authorization))))
    ensures r.Ok? || r.BadRequest? || r.Unauthorized?
  {
    var token := Bearer.ExtractToken(authorization);
    if token == "" then BadRequest(NoToken)
    else if AuthService.IsTokenInvalidated(cache, token, now) then Unauthorized(TokenInvalidated)
    else Ok(ValidBody(AuthService.GetTokenExpiry(codec, token)))
  }

  /**
   * `GetCurrentUser`: the name-identifier claim of the authenticated principal
   * must be present and parse as a 32-bit integer, and then names the user
   * looked up by primary key.
   */
  function GetCurrentUser(store: Users.Store, nameIdentifier: Option<string>): (r: Reply<UserView>)
    ensures nameIdentifier.None? ==> r == Unauthorized(InvalidToken)
    ensures nameIdentifier.Some? && Decimal.TryParseInt32(nameIdentifier.value).None? ==> r == Unauthorized(InvalidToken)
    ensures r.Ok? ==> exists u :: (u in store.users && r.body == ViewOf(u)
      && Decimal.TryParseInt32(nameIdentifier.value) == Some(u.id))
    ensures nameIdentifier.Some? && Decimal.TryParseInt32(nameIdentifier.value).Some? ==> r.Ok? || r.NotFound?
    ensures r.NotFound? ==> r.error == UserNotFound && forall u :: u in store.users ==> Some(u.id) != Decimal.TryParseInt32(nameIdentifier.value)
  {
    if nameIdentifier.None? || nameIdentifier.value == "" then Unauthorized(InvalidToken)
    else
      match Decimal.TryParseInt32(nameIdentifier.value)
      case None => Unauthorized(InvalidToken)
      case Some(id) =>
        match Users.FindById(store, id)
        case None => NotFound(UserNotFound)
        case Some(u) => Ok(ViewOf(u))
  }
}

=== FILE: auth_service.dfy ===
/**
 * AuthService: token issuance, the embedded-expiry reader and the revocation
 * blacklist kept in the process-wide memory cache.
 */
module AuthService {
  import opened Wrappers
  import opened Jwt
  import Decimal
  import Users

  /** Issued tokens expire two hours after issuance. */
  const TokenLifetime: int := 7200

  /** Configuration values `Jwt:Key`, `Jwt:Issuer` and `Jwt:Audience`, each possibly missing. */
  datatype JwtConfig = JwtConfig(key: Option<string>, issuer: Option<string>, audience: Option<string>)

  /** The `ArgumentNullException` thrown when the signing key is not configured. */
  datatype ConfigError = KeyNotConfigured

  /** `!string.IsNullOrEmpty(_config["Jwt:Key"])`. */
  predicate KeyConfigured(config: JwtConfig) {
    config.key.Some? && config.key.value != ""
  }

  /** Issuance instants whose expiry still fits the token's date range. */
  predicate IssuableAt(now: Time) {
    0 <= now <= DateTimeMaxValue - TokenLifetime
  }

  /**
   * The claims of a token issued to `user` at `now`; `jti` is "" for the
   * source's tokens, which carry none. The id and level are written as
   * decimal text that parses back to them, and the expiry is two hours on.
   */
  function TokenClaims(config: JwtConfig, user: Users.User, now: Time, jti: string): (c: Claims)
    ensures c.exp == Some(now + TokenLifetime) && (IssuableAt(now) ==> EncodableExpiry(c))
    ensures Decimal.IsInt32(user.id) ==> Decimal.TryParseInt32(c.nameIdentifier) == Some(user.id)
    ensures Decimal.IsInt32(user.level) ==> Decimal.TryParseInt32(c.role) == Some(user.level)
    ensures c.name == user.username && c.email == user.email && c.jti == jti
  {
    Decimal.ParseInt32RoundTrip(user.id);
    Decimal.ParseInt32RoundTrip(user.level);
    Claims(
      Decimal.Int32ToString(user.id),
      user.username,
      user.email,
      Decimal.Int32ToString(user.level),
      config.issuer.GetOr(""),
      config.audience.GetOr(""),
      jti,
      Some(now + TokenLifetime))
  }

  /**
   * `GenerateJwtToken`: fails exactly when the key is missing or empty; a token
   * it issues reads back with the user's claims and an expiry two hours on.
   */
  function GenerateJwtToken(config: JwtConfig, codec: Codec, user: Users.User, now: Time): (r: Result<string, ConfigError>)
    ensures r.Failure? <==> !KeyConfigured(config)
    ensures r.Success? && Sound(codec) && IssuableAt(now) ==>
      && GetTokenExpiry(codec, r.value) == Some(now + TokenLifetime)
      && codec.read(r.value).Some?
      && codec.read(r.value).value.nameIdentifier == Decimal.Int32ToString(user.id)
      && codec.read(r.value).value.name == user.username
  {
    if !KeyConfigured(config) then Failure(KeyNotConfigured)
    else
      var claims := TokenClaims(config, user, now, "");
      var token := codec.write(claims, config.key.value);
      assert Sound(codec) && IssuableAt(now) ==> codec.read(token) == Some(claims);
      Success(token)
  }

  /**
   * The issuer with a unique token identifier (the `jti` claim of section 4.1.7
   * of RFC 7519) added; otherwise identical to `GenerateJwtToken`.
   */
  function GenerateJwtTokenWithId(config: JwtConfig, codec: Codec, user: Users.User, now: Time, jti: string): (r: Result<string, ConfigError>)
    ensures r.Failure? <==> !KeyConfigured(config)
    ensures r.Success? && Sound(codec) && IssuableAt(now) ==>
      && GetTokenExpiry(codec, r.value) == Some(now + TokenLifetime)
      && codec.read(r.value).Some?
      && codec.read(r.value).value.jti == jti
  {
    if !KeyConfigured(config) then Failure(KeyNotConfigured)
    else
      var claims := TokenClaims(config, user, now, jti);
      var token := codec.write(claims, config.key.value);
      assert Sound(codec) && IssuableAt(now) ==> codec.read(token) == Some(claims);
      Success(token)
  }

  /** `GetTokenExpiry`: the embedded expiry of any parseable token, `None` for anything else; never fails. */
  function GetTokenExpiry(codec: Codec, token: string): (r: Option<Time>)
    ensures r.Some? <==> codec.read(token).Some?
    ensures r.Some? && codec.read(token).value.exp.None? ==> r.value == DateTimeMinValue
    ensures r.Some? && codec.read(token).value.exp.Some? ==> r.value == codec.read(token).value.exp.value
  {
    match codec.read(token)
    case None => None
    case Some(claims) => Some(ValidTo(claims))
  }

  // ---------------------------------------------------------------------------
  // The memory cache and the blacklist kept in it

  /** The memory cache: each key maps to the absolute instant its entry expires. */
  datatype Cache = Cache(entries: map<string, Time>)

  const EmptyCache := Cache(map[])

  /**
   * `TryGetValue`: an entry is visible strictly before its expiry instant and
   * absent from then on; a key never set is never found.
   */
  function TryGetValue(cache: Cache, key: string, now: Time): (found: bool)
    ensures key !in cache.entries ==> !found
    ensures key in cache.entries ==> (found <==> now < cache.entries[key])
  {
    key in cache.entries && now < cache.entries[key]
  }

  /** Expiry is passive and final: an entry absent at one instant stays absent at every later one. */
  lemma ExpiredStaysAbsent(cache: Cache, key: string, t1: Time, t2: Time)
    requires t1 <= t2 && !TryGetValue(cache, key, t1)
    ensures !TryGetValue(cache, key, t2)
  {
  }

  /** Key `k` holds the same entry, or none, in both caches. */
  predicate Agree(c1: Cache, c2: Cache, k: string) {
    && (k in c1.entries <==> k in c2.entries)
    && (k in c1.entries ==> c1.entries[k] == c2.entries[k])
  }

  /**
   * `Set(key, value, ttl)` with a relative expiry: the entry, replacing any
   * earlier one, is visible exactly until `now + ttl`; no other key changes.
   * The cache rejects a non-positive lifetime.
   */
  function Set(cache: Cache, key: string, ttl: int, now: Time): (r: Cache)
    requires ttl > 0
    ensures forall at :: TryGetValue(r, key, at) <==> at < now + ttl
    ensures forall k :: k != key ==> Agree(r, cache, k)
  {
    Cache(cache.entries[key := now + ttl])
  }

  const BlacklistPrefix := "blacklist_"

  /** The cache key of a revoked token: the prefix followed by the raw token text. */
  function BlacklistKey(token: string): string {
    BlacklistPrefix + token
  }

  predicate IsBlacklistKey(k: string) {
    |BlacklistPrefix| <= |k| && k[..|BlacklistPrefix|] == BlacklistPrefix
  }

  /** The token a blacklist key was made from. */
  function TokenOf(k: string): string
    requires IsBlacklistKey(k)
  {
    k[|BlacklistPrefix|..]
  }

  /** Keys and tokens correspond one to one. */
  lemma BlacklistKeyRoundTrip(token: string, k: string)
    ensures IsBlacklistKey(BlacklistKey(token)) && TokenOf(BlacklistKey(token)) == token
    ensures IsBlacklistKey(k) ==> BlacklistKey(TokenOf(k)) == k
  {
    assert BlacklistKey(token)[..|BlacklistPrefix|] == BlacklistPrefix;
    if IsBlacklistKey(k) {
      assert k == k[..|BlacklistPrefix|] + k[|BlacklistPrefix|..];
    }
  }

  /** Two tokens share a blacklist key exactly when they are the same token. */
  lemma BlacklistKeyInjective(a: string, b: string)
    ensures BlacklistKey(a) == BlacklistKey(b) <==> a == b
  {
    BlacklistKeyRoundTrip(a, "");
    BlacklistKeyRoundTrip(b, "");
  }

  /**
   * `IsTokenInvalidated`: a token reads as revoked exactly when some unexpired
   * cache entry is a blacklist key naming that very token; entries under other
   * keys, and expired ones, play no part.
   */
  function IsTokenInvalidated(cache: Cache, token: string, now: Time): (revoked: bool)
    ensures revoked <==> exists k :: k in cache.entries && IsBlacklistKey(k) && TokenOf(k) == token && now < cache.entries[k]
  {
    LiveKeyNamesToken(cache, token, now);
    TryGetValue(cache, BlacklistKey(token), now)
  }

  /** The blacklist key of a token is the only key whose entry can speak for it. */
  lemma LiveKeyNamesToken(cache: Cache, token: string, now: Time)
    ensures TryGetValue(cache, BlacklistKey(token), now) <==>
      exists k :: k in cache.entries && IsBlacklistKey(k) && TokenOf(k) == token && now < cache.entries[k]
  {
    BlacklistKeyRoundTrip(token, "");
    forall k | k in cache.entries && IsBlacklistKey(k) && TokenOf(k) == token
      ensures k == BlacklistKey(token)
    {
      BlacklistKeyRoundTrip(token, k);
    }
  }

  /**
   * `InvalidateToken`: blacklists a token for exactly the rest of its embedded
   * lifetime; an unparseable or already expired token leaves the cache as it
   * was; no other token's status changes.
   */
  function InvalidateToken(cache: Cache, codec: Codec, token: string, now: Time): (r: Cache)
    ensures match GetTokenExpiry(codec, token)
      case None => r == cache
      case Some(expiry) =>
        && (expiry <= now ==> r == cache)
        && (now < expiry ==> BlacklistKey(token) in r.entries && r.entries[BlacklistKey(token)] == expiry)
        && (now < expiry ==> forall at :: IsTokenInvalidated(r, token, at) <==> at < expiry)
    ensures forall k :: k != BlacklistKey(token) ==> Agree(r, cache, k)
    ensures forall other, at :: other != token ==>
      (IsTokenInvalidated(r, other, at) <==> IsTokenInvalidated(cache, other, at))
  {
    AllKeysInjective();
    match GetTokenExpiry(codec, token)
    case None => cache
    case Some(expiry) =>
      var timeUntilExpiry := expiry - now;
      if timeUntilExpiry > 0 then Set(cache, BlacklistKey(token), timeUntilExpiry, now) else cache
  }

  lemma AllKeysInjective()
    ensures forall a, b :: BlacklistKey(a) == BlacklistKey(b) ==> a == b
  {
    forall a, b | BlacklistKey(a) == BlacklistKey(b) {
      BlacklistKeyInjective(a, b);
    }
  }

  /**
   * The cache holds only blacklist entries, each expiring exactly when the
   * token it names does: no entry outlives its token, and none is shorter.
   */
  ghost predicate WellFormed(cache: Cache, codec: Codec) {
    forall k :: k in cache.entries ==>
      IsBlacklistKey(k) && GetTokenExpiry(codec, TokenOf(k)) == Some(cache.entries[k])
  }

  /** Revocation keeps every entry tied to its token's own expiry. */
  lemma InvalidatePreservesWellFormed(cache: Cache, codec: Codec, token: string, now: Time)
    requires WellFormed(cache, codec)
    ensures WellFormed(InvalidateToken(cache, codec, token, now), codec)
  {
    var r := InvalidateToken(cache, codec, token, now);
    BlacklistKeyRoundTrip(token, "");
    forall k | k in r.entries
      ensures IsBlacklistKey(k) && GetTokenExpiry(codec, TokenOf(k)) == Some(r.entries[k])
    {
      if k != BlacklistKey(token) {
        assert Agree(r, cache, k);
      }
    }
  }

  /** In a well-formed cache a token reads as revoked only before its own embedded expiry. */
  lemma RevocationNeverOutlivesToken(cache: Cache, codec: Codec, token: string, at: Time)
    requires WellFormed(cache, codec)
    requires IsTokenInvalidated(cache, token, at)
    ensures GetTokenExpiry(codec, token).Some? && at < GetTokenExpiry(codec, token).value
  {
    BlacklistKeyRoundTrip(token, "");
    assert BlacklistKey(token) in cache.entries;
  }

  /**
   * Revoking again, at the same or a later instant, changes nothing: the
   * second `Set` writes the entry that is already there, or the token has
   * expired and the call is a no-op.
   */
  lemma InvalidateIdempotent(cache: Cache, codec: Codec, token: string, now1: Time, now2: Time)
    requires now1 <= now2
    ensures InvalidateToken(InvalidateToken(cache, codec, token, now1), codec, token, now2)
         == InvalidateToken(cache, codec, token, now1)
  {
    var once := InvalidateToken(cache, codec, token, now1);
    var twice := InvalidateToken(once, codec, token, now2);
    if GetTokenExpiry(codec, token).Some? && now2 < GetTokenExpiry(codec, token).value {
      assert twice.entries == once.entries;
    }
  }

  // ---------------------------------------------------------------------------
  // Local wall-clock time

  /**
   * The machine's time zone as the two conversions `DateTime` performs: from
   * a UTC instant to local wall-clock seconds (`DateTime.Now`), and from a
   * local wall-clock value back to UTC (`ToUniversalTime`, which the token
   * library applies to the `expires` it is given).
   */
  datatype Zone = Zone(toLocal: Time -> Time, toUtc: Time -> Time)

  /** A zone without clock changes: local time is UTC plus one constant offset, the one it has at instant 0. */
  ghost predicate FixedOffset(zone: Zone) {
    forall t: Time :: zone.toLocal(t) == t + zone.toLocal(0) && zone.toUtc(t) == t - zone.toLocal(0)
  }

  /**
   * The `exp` the source writes: two hours added to the local wall-clock
   * time, converted to UTC afterwards. In a zone without clock changes it is
   * two hours after issuance, the expiry the rest of the model uses.
   */
  function LocalClockExpiry(zone: Zone, now: Time): (exp: Time)
    ensures FixedOffset(zone) ==> exp == now + TokenLifetime
  {
    zone.toUtc(zone.toLocal(now) + TokenLifetime)
  }

  /** A zone on UTC until `switch`, when its clocks move forward one hour. */
  function SpringForward(switch: Time): Zone {
    Zone(t => if t < switch then t else t + 3600, l => if l < switch then l else l - 3600)
  }

  /**
   * As written, a token issued within the two hours before the clocks move
   * forward expires one hour after issuance, not two.
   */
  lemma ClockChangeShortensToken(switch: Time, now: Time)
    requires switch - TokenLifetime <= now < switch
    ensures LocalClockExpiry(SpringForward(switch), now) == now + TokenLifetime - 3600
  {
  }

  /**
   * A zone one hour ahead of UTC until `switch`, when its clocks move back to
   * UTC. A repeated local time is read as the later, standard-time instant,
   * as `ToUniversalTime` reads an ambiguous time.
   */
  function FallBack(switch: Time): Zone {
    Zone(t => if t < switch then t + 3600 else t, l => if l < switch then l - 3600 else l)
  }

  /**
   * As written, a token issued within the two hours before the clocks move
   * back expires three hours after issuance, not two.
   */
  lemma ClockChangeLengthensToken(switch: Time, now: Time)
    requires switch - TokenLifetime <= now < switch
    ensures LocalClockExpiry(FallBack(switch), now) == now + TokenLifetime + 3600
  {
  }

  // ---------------------------------------------------------------------------
  // The lifetime test of the bearer authentication after the gate

  /** The bearer authentication's default tolerance for clock differences, in seconds. */
  const DefaultClockSkew := 300

  /**
   * The lifetime test of the framework's bearer authentication with the
   * default skew: a token needs an expiry, and is refused once that expiry
   * lies more than the skew in the past.
   */
  predicate LifetimeAccepts(codec: Codec, token: string, at: Time) {
    && codec.read(token).Some?
    && codec.read(token).value.exp.Some?
    && at - DefaultClockSkew <= codec.read(token).value.exp.value
  }

  /**
   * Revocation that lasts as long as the authentication still accepts the
   * token: the entry lives until the last second of the skew after the
   * embedded expiry. A revoked token then reads as revoked at every later
   * instant the lifetime test accepts; no other key changes.
   */
  function InvalidateTokenCoveringSkew(cache: Cache, codec: Codec, token: string, now: Time): (r: Cache)
    ensures forall at :: now <= at && LifetimeAccepts(codec, token, at) ==> IsTokenInvalidated(r, token, at)
    ensures forall k :: k != BlacklistKey(token) ==> Agree(r, cache, k)
  {
    match GetTokenExpiry(codec, token)
    case None => cache
    case Some(expiry) =>
      var ttl := expiry + DefaultClockSkew + 1 - now;
      if ttl > 0 then Set(cache, BlacklistKey(token), ttl, now) else cache
  }
}

=== FILE: bearer.dfy ===
/**
 * Bearer-token extraction as the source writes it: the `Authorization` header
 * with every occurrence of "Bearer " removed (`string.Replace("Bearer ", "")`),
 * an approximation of the scheme of section 2.1 of RFC 6750. A missing header
 * reads as "".
 */
module Bearer {
  import opened Text

  const Scheme := "Bearer "

  /** `pat` occurs in `s` starting at index `i`. */
  predicate OccursAt(s: string, pat: string, i: nat) {
    i + |pat| <= |s| && s[i..i + |pat|] == pat
  }

  predicate Occurs(s: string, pat: string) {
    exists i: nat | i <= |s| :: OccursAt(s, pat, i)
  }

  /**
   * `s.Replace(pat, "")`: an ordinal scan from the left that deletes each
   * occurrence and resumes after it, so occurrences never overlap.
   */
  function RemoveAll(s: string, pat: string): (r: string)
    requires |pat| > 0
    ensures |r| <= |s|
    decreases |s|
  {
    if |s| == 0 then s
    else if |pat| <= |s| && s[..|pat|] == pat then RemoveAll(s[|pat|..], pat)
    else [s[0]] + RemoveAll(s[1..], pat)
  }

  /**
   * The token the middleware and the controller read from a header: never
   * longer than the header, and the header itself exactly when "Bearer "
   * does not occur in it.
   */
  function ExtractToken(header: string): (token: string)
    ensures |token| <= |header|
    ensures token == header <==> !Occurs(header, Scheme)
  {
    RemoveAllIdentityIff(header, Scheme);
    RemoveAll(header, Scheme)
  }

  /** An occurrence anywhere makes the removal shorten the text. */
  lemma {:induction false} RemoveAllShrinks(s: string, pat: string, i: nat)
    requires |pat| > 0 && OccursAt(s, pat, i)
    ensures |RemoveAll(s, pat)| < |s|
    decreases |s|
  {
    if |pat| <= |s| && s[..|pat|] == pat {
    } else {
      assert i > 0;
      assert s[1..][i - 1..i - 1 + |pat|] == s[i..i + |pat|];
      RemoveAllShrinks(s[1..], pat, i - 1);
    }
  }

  /** Without an occurrence the removal returns the text unchanged. */
  lemma {:induction false} RemoveAllNoOccurrence(s: string, pat: string)
    requires |pat| > 0 && !Occurs(s, pat)
    ensures RemoveAll(s, pat) == s
    decreases |s|
  {
    if |s| > 0 {
      assert !OccursAt(s, pat, 0);
      assert !Occurs(s[1..], pat) by {
        forall i: nat | OccursAt(s[1..], pat, i)
          ensures false
        {
          assert s[i + 1..i + 1 + |pat|] == s[1..][i..i + |pat|];
          assert OccursAt(s, pat, i + 1);
        }
      }
      RemoveAllNoOccurrence(s[1..], pat);
      assert s == [s[0]] + s[1..];
    }
  }

  /** `Replace` leaves a text unchanged exactly when the pattern does not occur in it. */
  lemma RemoveAllIdentityIff(s: string, pat: string)
    requires |pat| > 0
    ensures RemoveAll(s, pat) == s <==> !Occurs(s, pat)
  {
    if Occurs(s, pat) {
      var i: nat :| OccursAt(s, pat, i);
      RemoveAllShrinks(s, pat, i);
    } else {
      RemoveAllNoOccurrence(s, pat);
    }
  }

  /** An occurrence of the scheme starts with 'B' and ends with a space. */
  lemma SchemeCharsAt(s: string, i: nat)
    ensures OccursAt(s, Scheme, i) ==> s[i] == 'B' && s[i + 6] == ' '
  {
    if OccursAt(s, Scheme, i) {
      assert s[i] == s[i..i + 7][0];
      assert s[i + 6] == s[i..i + 7][6];
    }
  }

  /** A text without a space cannot contain the scheme, whose last character is a space. */
  lemma NoSpaceNoScheme(x: string)
    requires ' ' !in x
    ensures !Occurs(x, Scheme)
  {
    forall i: nat | OccursAt(x, Scheme, i)
      ensures false
    {
      SchemeCharsAt(x, i);
    }
  }

  /** `Authorization: Bearer X` yields `X` whenever `X` itself holds no "Bearer ". */
  lemma ExtractAfterScheme(x: string)
    requires !Occurs(x, Scheme)
    ensures ExtractToken(Scheme + x) == x
  {
    var s := Scheme + x;
    assert s[..|Scheme|] == Scheme;
    assert s[|Scheme|..] == x;
    RemoveAllNoOccurrence(x, Scheme);
  }

  /**
   * The removal is case-sensitive: a header using the lower-case scheme word
   * comes through whole, scheme and all.
   */
  lemma LowercaseSchemeKept(x: string)
    requires !Occurs(x, Scheme)
    ensures ExtractToken("bearer " + x) == "bearer " + x
  {
    var s := "bearer " + x;
    assert forall j :: 0 <= j < 7 ==> s[j] != 'B';
    assert !Occurs(s, Scheme) by {
      forall i: nat | OccursAt(s, Scheme, i)
        ensures false
      {
        SchemeCharsAt(s, i);
        if i >= 7 {
          assert x[i - 7..i - 7 + 7] == s[i..i + 7];
          assert OccursAt(x, Scheme, i - 7);
        }
      }
    }
    RemoveAllNoOccurrence(s, Scheme);
  }

  /**
   * The removal does not trim: after a doubled space the token keeps a
   * leading space.
   */
  lemma DoubledSpaceKept(x: string)
    requires ' ' !in x
    ensures ExtractToken("Bearer  " + x) == " " + x
  {
    var y := " " + x;
    assert !Occurs(y, Scheme) by {
      forall i: nat | OccursAt(y, Scheme, i)
        ensures false
      {
        SchemeCharsAt(y, i);
      }
    }
    assert "Bearer  " + x == Scheme + y;
    ExtractAfterScheme(y);
  }

  /**
   * The extraction the framework's bearer authentication performs: the scheme
   * word is matched ignoring case at the start of the header, and the rest is
   * trimmed of white space; a header that does not start with the scheme
   * carries no token.
   */
  function ExtractTokenCorrected(header: string): (token: string)
    ensures !StartsWithIgnoreCase(header, Scheme) ==> token == ""
    ensures token != "" ==> !IsWhite(token[0]) && !IsWhite(token[|token| - 1])
  {
    if StartsWithIgnoreCase(header, Scheme) then
      TrimmedEnds(header[|Scheme|..]);
      TrimEnd(TrimStart(header[|Scheme|..]))
    else ""
  }

  /**
   * The corrected extraction recovers the token from the scheme word in any
   * letter case followed by any run of white space, e.g. `bearer <t>` and
   * `Bearer  <t>`.
   */
  lemma CorrectedExtractionRecoversToken(scheme: string, pad: string, t: string)
    requires EqualsIgnoreCase(scheme, Scheme)
    requires forall i :: 0 <= i < |pad| ==> IsWhite(pad[i])
    requires t != "" && !IsWhite(t[0]) && !IsWhite(t[|t| - 1])
    ensures ExtractTokenCorrected(scheme + pad + t) == t
  {
    var h := scheme + pad + t;
    assert h[..|Scheme|] == scheme;
    assert h[|Scheme|..] == pad + t;
    TrimStartWhitePrefix(pad, t);
  }
}

=== FILE: decimal.dfy ===
/**
 * Decimal text of 32-bit integers: `int.ToString()` as used for the identifier
 * and role claims of an issued token, and `int.TryParse` as used to read the
 * identifier claim back.
 */
module Decimal {
  import opened Wrappers
  import opened Text

  const Int32Min: int := -0x8000_0000
  const Int32Max: int := 0x7FFF_FFFF

  predicate IsInt32(n: int) {
    Int32Min <= n <= Int32Max
  }

  predicate IsDigit(c: char) {
    '0' <= c <= '9'
  }

  predicate AllDigits(s: string) {
    forall i :: 0 <= i < |s| ==> IsDigit(s[i])
  }

  function DigitValue(c: char): nat
    requires IsDigit(c)
  {
    c as int - '0' as int
  }

  function DigitChar(d: nat): (c: char)
    requires d < 10
    ensures IsDigit(c) && DigitValue(c) == d
  {
    ('0' as int + d) as char
  }

  /** The digits of `n`, most significant first, without leading zeros. */
  function NatToDigits(n: nat): (s: string)
    ensures |s| > 0 && AllDigits(s)
    ensures s[0] != '0' || n == 0
    decreases n
  {
    if n < 10 then [DigitChar(n)] else NatToDigits(n / 10) + [DigitChar(n % 10)]
  }

  /** The number a digit string denotes, most significant digit first. */
  function DigitsValue(s: string): nat
    requires AllDigits(s)
    decreases |s|
  {
    if |s| == 0 then 0 else 10 * DigitsValue(s[..|s| - 1]) + DigitValue(s[|s| - 1])
  }

  lemma {:induction false} DigitsValueOfNatToDigits(n: nat)
    ensures DigitsValue(NatToDigits(n)) == n
    decreases n
  {
    if n >= 10 {
      var s := NatToDigits(n / 10) + [DigitChar(n % 10)];
      assert s[..|s| - 1] == NatToDigits(n / 10);
      DigitsValueOfNatToDigits(n / 10);
    }
  }

  /** `int.ToString()` under the invariant culture: a '-' for negatives, then the digits of the magnitude. */
  function Int32ToString(n: int): (s: string)
    ensures |s| > 0
    ensures s[0] == '-' <==> n < 0
    ensures AllDigits(if n < 0 then s[1..] else s)
  {
    if n < 0 then "-" + NatToDigits(-n) else NatToDigits(n)
  }

  /**
   * `int.TryParse(s, out v)`: optional surrounding white space, an optional
   * '+' or '-', at least one decimal digit, and a value that fits in 32 bits.
   */
  function TryParseInt32(s: string): (r: Option<int>)
    ensures r.Some? ==> IsInt32(r.value)
    ensures r.Some? ==> exists i :: 0 <= i < |s| && IsDigit(s[i])
  {
    var t := TrimEnd(TrimStart(s));
    TrimmedIsInfix(s);
    if |t| == 0 then None
    else
      var body := if t[0] == '-' || t[0] == '+' then t[1..] else t;
      if |body| == 0 || !AllDigits(body) then None
      else
        var v: int := if t[0] == '-' then -(DigitsValue(body) as int) else DigitsValue(body);
        if IsInt32(v) then
          assert IsDigit(t[|t| - 1]);
          Some(v)
        else None
  }

  /** Reading back the text `Int32ToString` writes for a 32-bit integer yields the same number. */
  lemma {:induction false} ParseInt32RoundTrip(n: int)
    ensures IsInt32(n) ==> TryParseInt32(Int32ToString(n)) == Some(n)
  {
    if IsInt32(n) {
      var s := Int32ToString(n);
      assert TrimStart(s) == s;
      assert TrimEnd(s) == s by {
        assert IsDigit(s[|s| - 1]);
      }
      var m: nat := if n < 0 then -n else n;
      DigitsValueOfNatToDigits(m);
      if n < 0 {
        assert s[1..] == NatToDigits(m);
      }
    }
  }
}

=== FILE: jwt.dfy ===
/**
 * The JWT library as the core sees it: a writer that serialises and signs a
 * claim set, and a reader that recovers the claims WITHOUT checking the
 * signature (`JwtSecurityTokenHandler.ReadJwtToken`). Both stay abstract; the
 * one thing assumed of them is `Sound`.
 */
module Jwt {
  import opened Wrappers

  /** Instants in whole seconds since the Unix epoch, UTC. One clock serves every caller. */
  type Time = int

  /** `DateTime.MinValue` (0001-01-01T00:00:00Z), what `ValidTo` reports for a token without `exp`. */
  const DateTimeMinValue: Time := -62135596800
  /** The last whole second `DateTime` can hold (9999-12-31T23:59:59Z). */
  const DateTimeMaxValue: Time := 253402300799

  /**
   * The claims an issued token carries. `issuer`, `audience` and `jti` use ""
   * for a claim that is not present; `exp` is the expiry claim of section
   * 4.1.4 of RFC 7519.
   */
  datatype Claims = Claims(
    nameIdentifier: string,
    name: string,
    email: string,
    role: string,
    issuer: string,
    audience: string,
    jti: string,
    exp: Option<Time>)

  /** A token handler: `write` serialises and signs with a key, `read` parses without verifying. */
  datatype Codec = Codec(write: (Claims, string) -> string, read: string -> Option<Claims>)

  /** Expiry instants the compact serialisation carries faithfully. */
  predicate EncodableExpiry(c: Claims) {
    c.exp.Some? ==> 0 <= c.exp.value <= DateTimeMaxValue
  }

  /**
   * What the model assumes of the library: reading back a written token gives
   * its claims, and the compact serialisation (base64url segments joined by
   * dots) is never empty and never contains a space.
   */
  ghost predicate Sound(codec: Codec) {
    forall c: Claims, key: string :: EncodableExpiry(c) ==>
      && codec.read(codec.write(c, key)) == Some(c)
      && codec.write(c, key) != ""
      && ' ' !in codec.write(c, key)
  }

  /** `JwtSecurityToken.ValidTo`: the `exp` claim, or `DateTime.MinValue` when there is none. */
  function ValidTo(c: Claims): Time {
    c.exp.GetOr(DateTimeMinValue)
  }

  /** Distinct claim sets never serialise to the same token, whatever the keys. */
  lemma WriteInjective(codec: Codec, c1: Claims, k1: string, c2: Claims, k2: string)
    requires Sound(codec)
    requires EncodableExpiry(c1) && EncodableExpiry(c2)
    requires codec.write(c1, k1) == codec.write(c2, k2)
    ensures c1 == c2
  {
    assert codec.read(codec.write(c1, k1)) == Some(c1);
    assert codec.read(codec.write(c2, k2)) == Some(c2);
  }
}

=== FILE: middleware.dfy ===
/**
 * TokenValidationMiddleware: the per-request revocation gate that runs before
 * the framework's own signature and lifetime validation.
 */
module TokenValidationMiddleware {
  import opened Jwt
  import AuthService
  import Bearer
  import opened Text

  /** What the middleware does with a request: hand it to the next handler, or answer 401 itself. */
  datatype Decision = CallNext | Reject401

  /**
   * `PathString.StartsWithSegments(prefix)`: the path starts with the prefix,
   * ignoring case, and the match ends at the end of the path or at a '/'. Read
   * as segments: the path IS the prefix, or continues it with a further segment.
   */
  function StartsWithSegments(path: string, prefix: string): (matched: bool)
    ensures matched <==> EqualsIgnoreCase(path, prefix) || StartsWithIgnoreCase(path, prefix + "/")
  {
    SegmentBoundaryIff(path, prefix);
    StartsWithIgnoreCase(path, prefix) && (|path| == |prefix| || path[|prefix|] == '/')
  }

  /** A case-insensitive prefix match that ends at a segment boundary is a whole-segment match. */
  lemma SegmentBoundaryIff(path: string, prefix: string)
    ensures (StartsWithIgnoreCase(path, prefix) && (|path| == |prefix| || path[|prefix|] == '/')) <==>
      EqualsIgnoreCase(path, prefix) || StartsWithIgnoreCase(path, prefix + "/")
  {
    var q := prefix + "/";
    if StartsWithIgnoreCase(path, q) {
      assert path[..|prefix|] == path[..|q|][..|prefix|];
      assert forall i :: 0 <= i < |prefix| ==> q[i] == prefix[i];
      assert path[|prefix|] == path[..|q|][|prefix|];
      assert ToUpperAscii(path[|prefix|]) == ToUpperAscii('/');
    }
    if StartsWithIgnoreCase(path, prefix) && |path| != |prefix| && path[|prefix|] == '/' {
      assert path[..|q|] == path[..|prefix|] + [path[|prefix|]];
      assert EqualsIgnoreCase(path[..|q|], q);
    }
    if EqualsIgnoreCase(path, prefix) {
      assert path[..|prefix|] == path;
    }
  }

  /** The path prefixes the gate lets through unchecked, in the order it tests them. */
  const SkipPrefixes: seq<string> := ["/api/auth", "/swagger", "/health"]

  /**
   * The gate's skip list: every path under `/api/auth` (all of the auth
   * controller, `/api/auth/me` included), under `/swagger`, and under
   * `/health`. The health endpoint the application maps is `/api/health`,
   * which is not on the list and is therefore gated.
   */
  function IsSkipped(path: string): (skipped: bool)
    ensures skipped <==> exists i :: 0 <= i < |SkipPrefixes| &&
                                     (EqualsIgnoreCase(path, SkipPrefixes[i]) || StartsWithIgnoreCase(path, SkipPrefixes[i] + "/"))
  {
    SkipListIff(path);
    || StartsWithSegments(path, "/api/auth")
    || StartsWithSegments(path, "/swagger")
    || StartsWithSegments(path, "/health")
  }

  /** The three tests of the skip list are the segment matches against `SkipPrefixes`. */
  lemma SkipListIff(path: string)
    ensures (|| StartsWithSegments(path, "/api/auth")
             || StartsWithSegments(path, "/swagger")
             || StartsWithSegments(path, "/health")) <==>
      exists i :: 0 <= i < |SkipPrefixes| && StartsWithSegments(path, SkipPrefixes[i])
  {
    assert SkipPrefixes[0] == "/api/auth" && SkipPrefixes[1] == "/swagger" && SkipPrefixes[2] == "/health";
  }

  /**
   * `InvokeAsync`: a request is answered 401 exactly when its path is gated,
   * its extracted token is non-empty and that token is on the blacklist;
   * every other request goes to the next handler. The cache is only read.
   */
  function InvokeAsync(path: string, authorization: string, cache: AuthService.Cache, now: Time): (d: Decision)
    ensures IsSkipped(path) ==> d == CallNext
    ensures Bearer.ExtractToken(authorization) == "" ==> d == CallNext
    ensures d == Reject401 <==>
      && !IsSkipped(path)
      && Bearer.ExtractToken(authorization) != ""
      && AuthService.IsTokenInvalidated(cache, Bearer.ExtractToken(authorization), now)
  {
    if IsSkipped(path) then CallNext
    else
      var token := Bearer.ExtractToken(authorization);
      if token != "" && AuthService.IsTokenInvalidated(cache, token, now) then Reject401
      else CallNext
  }

  /** Paths the skip list covers: whole segments under its prefixes, in any letter case. */
  lemma SkippedPathExamples()
    ensures IsSkipped("/api/auth") && IsSkipped("/api/auth/login") && IsSkipped("/API/Auth/logout")
    ensures IsSkipped("/api/auth/me") && IsSkipped("/swagger/index.html") && IsSkipped("/health")
  {
    assert StartsWithSegments("/api/auth/login", "/api/auth") by {
      assert "/api/auth/login"[..9] == "/api/auth";
    }
    assert StartsWithSegments("/API/Auth/logout", "/api/auth") by {
      assert EqualsIgnoreCase("/API/Auth/logout"[..9], "/api/auth");
    }
    assert StartsWithSegments("/api/auth/me", "/api/auth") by {
      assert "/api/auth/me"[..9] == "/api/auth";
    }
    assert StartsWithSegments("/swagger/index.html", "/swagger") by {
      assert "/swagger/index.html"[..8] == "/swagger";
    }
  }

  /** Paths the skip list does not cover: a longer segment, and the health endpoint the application maps. */
  lemma GatedPathExamples()
    ensures !IsSkipped("/api/authors") && !IsSkipped("/api/health") && !IsSkipped("/api/users")
  {
    assert !StartsWithSegments("/api/authors", "/api/auth") by {
      assert "/api/authors"[9] == 'o';
    }
    assert !StartsWithSegments("/api/health", "/health") by {
      assert ToUpperAscii("/api/health"[1]) != ToUpperAscii("/health"[1]);
    }
    assert !StartsWithSegments("/api/health", "/api/auth") by {
      assert ToUpperAscii("/api/health"[5]) != ToUpperAscii("/api/auth"[5]);
    }
    assert !StartsWithSegments("/api/users", "/api/auth") by {
      assert ToUpperAscii("/api/users"[5]) != ToUpperAscii("/api/auth"[5]);
    }
    assert !StartsWithSegments("/api/users", "/health") by {
      assert ToUpperAscii("/api/users"[1]) != ToUpperAscii("/health"[1]);
    }
    assert !StartsWithSegments("/api/authors", "/health") by {
      assert ToUpperAscii("/api/authors"[1]) != ToUpperAscii("/health"[1]);
    }
    assert !StartsWithSegments("/api/authors", "/swagger") by {
      assert ToUpperAscii("/api/authors"[1]) != ToUpperAscii("/swagger"[1]);
    }
    assert !StartsWithSegments("/api/health", "/swagger") by {
      assert ToUpperAscii("/api/health"[1]) != ToUpperAscii("/swagger"[1]);
    }
    assert !StartsWithSegments("/api/users", "/swagger") by {
      assert ToUpperAscii("/api/users"[1]) != ToUpperAscii("/swagger"[1]);
    }
  }

  // ---------------------------------------------------------------------------
  // The current-user endpoint behind the skip list

  /** The route of `AuthController.GetCurrentUser`. */
  const CurrentUserPath := "/api/auth/me"

  /**
   * As written, the gate never stops a request for the current user, whatever
   * token it carries: `/api/auth/me` lies under the skipped `/api/auth`.
   */
  lemma CurrentUserNeverGated(authorization: string, cache: AuthService.Cache, now: Time)
    ensures InvokeAsync(CurrentUserPath, authorization, cache, now) == CallNext
  {
    assert StartsWithSegments(CurrentUserPath, "/api/auth") by {
      assert CurrentUserPath[..9] == "/api/auth";
    }
  }

  /**
   * The skip list with the current-user route taken out: the anonymous auth
   * endpoints, the documentation and `/health` stay skipped, and
   * `/api/auth/me` is checked like every other authenticated route.
   */
  function IsSkippedCorrected(path: string): (skipped: bool)
    ensures !StartsWithSegments(path, CurrentUserPath) ==> (skipped <==> IsSkipped(path))
    ensures StartsWithSegments(path, CurrentUserPath) ==> !skipped
  {
    IsSkipped(path) && !StartsWithSegments(path, CurrentUserPath)
  }

  /** The gate over the corrected skip list; otherwise the same decision as `InvokeAsync`. */
  function InvokeAsyncCorrected(path: string, authorization: string, cache: AuthService.Cache, now: Time): (d: Decision)
    ensures !StartsWithSegments(path, CurrentUserPath) ==> d == InvokeAsync(path, authorization, cache, now)
    ensures d == Reject401 <==>
      && !IsSkippedCorrected(path)
      && Bearer.ExtractToken(authorization) != ""
      && AuthService.IsTokenInvalidated(cache, Bearer.ExtractToken(authorization), now)
  {
    if IsSkippedCorrected(path) then CallNext
    else
      var token := Bearer.ExtractToken(authorization);
      if token != "" && AuthService.IsTokenInvalidated(cache, token, now) then Reject401
      else CallNext
  }

  /** With the corrected skip list a revoked token is refused at `/api/auth/me` until it lapses. */
  lemma CorrectedGateStopsRevokedAtCurrentUser(authorization: string, cache: AuthService.Cache, now: Time)
    requires Bearer.ExtractToken(authorization) != ""
    requires AuthService.IsTokenInvalidated(cache, Bearer.ExtractToken(authorization), now)
    ensures InvokeAsyncCorrected(CurrentUserPath, authorization, cache, now) == Reject401
  {
    assert StartsWithSegments(CurrentUserPath, CurrentUserPath) by {
      assert CurrentUserPath[..|CurrentUserPath|] == CurrentUserPath;
    }
  }

  // ---------------------------------------------------------------------------
  // The scheme word as the framework's bearer authentication reads it

  /**
   * The gate with the skip list as written and the token read as the bearer
   * authentication after it reads it: scheme word in any case, the rest
   * trimmed. Wherever both extractions agree it decides as `InvokeAsync`.
   */
  function InvokeAsyncSchemeCorrected(path: string, authorization: string, cache: AuthService.Cache, now: Time): (d: Decision)
    ensures Bearer.ExtractTokenCorrected(authorization) == Bearer.ExtractToken(authorization) ==>
      d == InvokeAsync(path, authorization, cache, now)
    ensures d == Reject401 <==>
      && !IsSkipped(path)
      && Bearer.ExtractTokenCorrected(authorization) != ""
      && AuthService.IsTokenInvalidated(cache, Bearer.ExtractTokenCorrected(authorization), now)
  {
    if IsSkipped(path) then CallNext
    else
      var token := Bearer.ExtractTokenCorrected(authorization);
      if token != "" && AuthService.IsTokenInvalidated(cache, token, now) then Reject401
      else CallNext
  }

  /**
   * With the corrected extraction a revoked token is refused on a gated path
   * under the scheme word in any letter case and after any run of white space.
   */
  lemma CorrectedSchemeStopsRevoked(path: string, scheme: string, pad: string, token: string,
                                    cache: AuthService.Cache, now: Time)
    requires !IsSkipped(path)
    requires EqualsIgnoreCase(scheme, Bearer.Scheme)
    requires forall i :: 0 <= i < |pad| ==> IsWhite(pad[i])
    requires token != "" && !IsWhite(token[0]) && !IsWhite(token[|token| - 1])
    requires AuthService.IsTokenInvalidated(cache, token, now)
    ensures InvokeAsyncSchemeCorrected(path, scheme + pad + token, cache, now) == Reject401
  {
    Bearer.CorrectedExtractionRecoversToken(scheme, pad, token);
  }
}

=== FILE: passwords.dfy ===
/**
 * Password hashing (BCrypt in the source) as an abstract one-way function. The
 * random salt BCrypt draws is a parameter, so hashing is a function here.
 */
module Passwords {

  datatype Hasher = Hasher(hash: (string, string) -> string, verify: (string, string) -> bool)

  /** The one property assumed of the hasher: a password verifies against any of its own hashes. */
  ghost predicate Sound(h: Hasher) {
    forall password: string, salt: string :: h.verify(password, h.hash(password, salt))
  }

  /** `AuthService.HashPassword`. */
  function HashPassword(h: Hasher, password: string, salt: string): (digest: string)
    ensures Sound(h) ==> h.verify(password, digest)
  {
    h.hash(password, salt)
  }

  /** `AuthService.VerifyPassword`: a password is accepted against every digest made from it. */
  function VerifyPassword(h: Hasher, password: string, digest: string): (ok: bool)
    ensures Sound(h) && (exists salt :: digest == h.hash(password, salt)) ==> ok
  {
    h.verify(password, digest)
  }
}

=== FILE: scenarios.dfy ===
/**
 * Properties that span several operations: a session's life from login to
 * logout as the gate sees it, registration followed by login, the
 * current-user lookup of an issued token, and the re-login case.
 */
module Scenarios {
  import opened Wrappers
  import opened Jwt
  import Decimal
  import Text
  import Users
  import Passwords
  import AuthService
  import Bearer
  import TokenValidationMiddleware
  import AuthController

  /** A user who has just registered can log in with the same password and receives a token for that new row. */
  lemma RegisterThenLogin(store: Users.Store, hasher: Passwords.Hasher, config: AuthService.JwtConfig, codec: Codec,
                          dto: AuthController.UserCreateDto, salt: string, now: Time)
    requires Users.Valid(store) && Passwords.Sound(hasher) && AuthService.KeyConfigured(config)
    requires AuthController.Register(store, hasher, dto, salt).reply.Ok?
    ensures
      var next := AuthController.Register(store, hasher, dto, salt).state;
      var r := AuthController.Login(next, hasher, config, codec, AuthController.UserLoginDto(dto.username, dto.password), now);
      && r.Ok?
      && r.body.user == AuthController.ViewOf(next.users[|store.users|])
      && r.body.user.username == dto.username
      && r.body.expiresIn == 7200
  {
    var next := AuthController.Register(store, hasher, dto, salt).state;
    Users.FindStoredUser(next, |store.users|);
  }

  /** Registering the same username twice: the second attempt is refused and adds no row. */
  lemma DuplicateRegistrationRefused(store: Users.Store, hasher: Passwords.Hasher, dto: AuthController.UserCreateDto,
                                     dto2: AuthController.UserCreateDto, salt: string, salt2: string)
    requires AuthController.Register(store, hasher, dto, salt).reply.Ok?
    requires dto2.username == dto.username
    ensures
      var once := AuthController.Register(store, hasher, dto, salt).state;
      var twice := AuthController.Register(once, hasher, dto2, salt2);
      && twice.reply == AuthController.BadRequest(AuthController.UserExists)
      && twice.state == once
      && |twice.state.users| == |store.users| + 1
  {
    var once := AuthController.Register(store, hasher, dto, salt).state;
    assert once.users[|store.users|].username == dto2.username;
    assert Users.AnyUsername(once, dto2.username);
  }

  /**
   * The identifier claim written into a login token reads back, through
   * `int.TryParse`, to the row it was issued for, so the current-user
   * endpoint answers with that user.
   */
  lemma CurrentUserOfIssuedToken(store: Users.Store, hasher: Passwords.Hasher, config: AuthService.JwtConfig,
                                 codec: Codec, i: int, password: string, now: Time)
    requires Users.Valid(store) && 0 <= i < |store.users|
    requires Sound(codec) && AuthService.IssuableAt(now)
    requires AuthController.Login(store, hasher, config, codec,
               AuthController.UserLoginDto(store.users[i].username, password), now).Ok?
    ensures
      var r := AuthController.Login(store, hasher, config, codec,
                 AuthController.UserLoginDto(store.users[i].username, password), now);
      && codec.read(r.body.token).Some?
      && AuthController.GetCurrentUser(store, Some(codec.read(r.body.token).value.nameIdentifier))
         == AuthController.Ok(AuthController.ViewOf(store.users[i]))
  {
    var u := store.users[i];
    Users.FindStoredUser(store, i);
    var token := AuthService.GenerateJwtToken(config, codec, u, now).value;
    Decimal.ParseInt32RoundTrip(u.id);
    assert codec.read(token).value.nameIdentifier == Decimal.Int32ToString(u.id);
  }

  /** A token the codec writes comes out of the header `Bearer <token>` unchanged. */
  lemma IssuedTokenExtracts(codec: Codec, c: Claims, key: string)
    requires Sound(codec) && EncodableExpiry(c)
    ensures Bearer.ExtractToken(Bearer.Scheme + codec.write(c, key)) == codec.write(c, key)
    ensures codec.write(c, key) != ""
  {
    var t := codec.write(c, key);
    Bearer.NoSpaceNoScheme(t);
    Bearer.ExtractAfterScheme(t);
  }

  /**
   * Logout revokes the session for exactly the rest of its lifetime: on any
   * gated path, the same header is answered 401 at every instant before the
   * token's embedded expiry and passed on from the expiry on.
   */
  lemma LogoutRejectsUntilExpiry(cache: AuthService.Cache, codec: Codec, authorization: string,
                                 now: Time, expiry: Time, path: string)
    requires !TokenValidationMiddleware.IsSkipped(path)
    requires Bearer.ExtractToken(authorization) != ""
    requires AuthService.GetTokenExpiry(codec, Bearer.ExtractToken(authorization)) == Some(expiry)
    requires now < expiry
    ensures
      var after := AuthController.Logout(cache, codec, authorization, now).state;
      forall at ::
        (TokenValidationMiddleware.InvokeAsync(path, authorization, after, at) == TokenValidationMiddleware.Reject401)
        <==> at < expiry
  {
  }

  /**
   * On a gated path the middleware and the validate endpoint agree: the
   * request is answered 401 exactly when validation reports the token revoked.
   */
  lemma GateAgreesWithValidate(cache: AuthService.Cache, codec: Codec, authorization: string, now: Time, path: string)
    requires !TokenValidationMiddleware.IsSkipped(path)
    ensures TokenValidationMiddleware.InvokeAsync(path, authorization, cache, now) == TokenValidationMiddleware.Reject401
      <==> AuthController.ValidateToken(cache, codec, authorization, now).Unauthorized?
  {
  }

  /**
   * The lifecycle of one session: before logout, the validate endpoint
   * accepts a token issued at `now` and reports its expiry; once logged out
   * the token is revoked for the next 7200 seconds, through the gate as well,
   * and from `now + 7200` on it no longer is.
   */
  lemma SessionLifecycle(config: AuthService.JwtConfig, codec: Codec, user: Users.User, now: Time, path: string)
    requires Sound(codec) && AuthService.KeyConfigured(config) && AuthService.IssuableAt(now)
    requires !TokenValidationMiddleware.IsSkipped(path)
    ensures
      var token := AuthService.GenerateJwtToken(config, codec, user, now).value;
      var header := Bearer.Scheme + token;
      var after := AuthController.Logout(AuthService.EmptyCache, codec, header, now).state;
      && AuthController.ValidateToken(AuthService.EmptyCache, codec, header, now)
         == AuthController.Ok(AuthController.ValidBody(Some(now + AuthService.TokenLifetime)))
      && AuthService.IsTokenInvalidated(after, token, now)
      && AuthService.IsTokenInvalidated(after, token, now + 7199)
      && !AuthService.IsTokenInvalidated(after, token, now + 7200)
      && TokenValidationMiddleware.InvokeAsync(path, header, after, now + 7199) == TokenValidationMiddleware.Reject401
      && TokenValidationMiddleware.InvokeAsync(path, header, after, now + 7200) == TokenValidationMiddleware.CallNext
  {
    var claims := AuthService.TokenClaims(config, user, now, "");
    IssuedTokenExtracts(codec, claims, config.key.value);
  }

  /**
   * As written, a user who logs out can still read their profile with the
   * revoked token: the gate skips `/api/auth/me`, and the claim the framework
   * hands the endpoint still names the user. With the corrected skip list
   * the same request is answered 401.
   */
  lemma LoggedOutTokenStillReadsCurrentUser(store: Users.Store, hasher: Passwords.Hasher, config: AuthService.JwtConfig,
                                            codec: Codec, i: int, password: string, now: Time)
    requires Users.Valid(store) && 0 <= i < |store.users|
    requires Sound(codec) && AuthService.IssuableAt(now)
    requires AuthController.Login(store, hasher, config, codec,
               AuthController.UserLoginDto(store.users[i].username, password), now).Ok?
    ensures
      var token := AuthController.Login(store, hasher, config, codec,
                     AuthController.UserLoginDto(store.users[i].username, password), now).body.token;
      var header := Bearer.Scheme + token;
      var after := AuthController.Logout(AuthService.EmptyCache, codec, header, now).state;
      && AuthService.IsTokenInvalidated(after, token, now)
      && TokenValidationMiddleware.InvokeAsync(TokenValidationMiddleware.CurrentUserPath, header, after, now)
         == TokenValidationMiddleware.CallNext
      && AuthController.GetCurrentUser(store, Some(codec.read(token).value.nameIdentifier))
         == AuthController.Ok(AuthController.ViewOf(store.users[i]))
      && TokenValidationMiddleware.InvokeAsyncCorrected(TokenValidationMiddleware.CurrentUserPath, header, after, now)
         == TokenValidationMiddleware.Reject401
  {
    var u := store.users[i];
    CurrentUserOfIssuedToken(store, hasher, config, codec, i, password, now);
    Users.FindStoredUser(store, i);
    var claims := AuthService.TokenClaims(config, u, now, "");
    IssuedTokenExtracts(codec, claims, config.key.value);
    var token := AuthService.GenerateJwtToken(config, codec, u, now).value;
    var header := Bearer.Scheme + token;
    var after := AuthController.Logout(AuthService.EmptyCache, codec, header, now).state;
    TokenValidationMiddleware.CurrentUserNeverGated(header, after, now);
    TokenValidationMiddleware.CorrectedGateStopsRevokedAtCurrentUser(header, after, now);
  }

  // ---------------------------------------------------------------------------
  // Re-login within the same second

  /**
   * As written, a token is a function of the user, the configuration and the
   * expiry second only. Logging in, logging out and logging in again within
   * the same second therefore hands out the token just revoked, and every
   * gated request made with it is answered 401.
   */
  lemma SameSecondReloginIsRevoked(store: Users.Store, hasher: Passwords.Hasher, config: AuthService.JwtConfig,
                                   codec: Codec, cache: AuthService.Cache, dto: AuthController.UserLoginDto,
                                   now: Time, path: string)
    requires Sound(codec) && AuthService.IssuableAt(now)
    requires !TokenValidationMiddleware.IsSkipped(path)
    requires AuthController.Login(store, hasher, config, codec, dto, now).Ok?
    ensures
      var first := AuthController.Login(store, hasher, config, codec, dto, now).body.token;
      var after := AuthController.Logout(cache, codec, Bearer.Scheme + first, now).state;
      var second := AuthController.Login(store, hasher, config, codec, dto, now);
      && second.Ok?
      && AuthService.IsTokenInvalidated(after, second.body.token, now)
      && TokenValidationMiddleware.InvokeAsync(path, Bearer.Scheme + second.body.token, after, now)
         == TokenValidationMiddleware.Reject401
  {
    var u := Users.FindByUsername(store, dto.username).value;
    var claims := AuthService.TokenClaims(config, u, now, "");
    IssuedTokenExtracts(codec, claims, config.key.value);
  }

  /**
   * With a distinct `jti` per issuance, two tokens issued to the same user in
   * the same second differ, so logging out the first leaves the second's
   * status exactly as it was; starting from an empty cache the second session
   * passes the gate.
   */
  lemma FreshIdSurvivesEarlierLogout(config: AuthService.JwtConfig, codec: Codec, cache: AuthService.Cache,
                                     user: Users.User, now: Time, jti1: string, jti2: string, path: string)
    requires Sound(codec) && AuthService.KeyConfigured(config) && AuthService.IssuableAt(now)
    requires jti1 != jti2
    ensures
      var first := AuthService.GenerateJwtTokenWithId(config, codec, user, now, jti1).value;
      var second := AuthService.GenerateJwtTokenWithId(config, codec, user, now, jti2).value;
      var after := AuthController.Logout(cache, codec, Bearer.Scheme + first, now).state;
      && first != second
      && (forall at :: AuthService.IsTokenInvalidated(after, second, at) <==> AuthService.IsTokenInvalidated(cache, second, at))
      && (cache == AuthService.EmptyCache ==>
            TokenValidationMiddleware.InvokeAsync(path, Bearer.Scheme + second, after, now) == TokenValidationMiddleware.CallNext)
  {
    var c1 := AuthService.TokenClaims(config, user, now, jti1);
    var c2 := AuthService.TokenClaims(config, user, now, jti2);
    IssuedTokenExtracts(codec, c1, config.key.value);
    IssuedTokenExtracts(codec, c2, config.key.value);
    assert c1 != c2;
    if codec.write(c1, config.key.value) == codec.write(c2, config.key.value) {
      WriteInjective(codec, c1, config.key.value, c2, config.key.value);
    }
  }

  /**
   * The gate's extraction is case-sensitive: a revoked token sent under the
   * lower-case scheme word is looked up as "bearer <token>", which is not on
   * the blacklist, and the request is passed on.
   */
  lemma LowercaseSchemeSkipsBlacklist(codec: Codec, token: string, now: Time, path: string)
    requires ' ' !in token && token != ""
    requires !TokenValidationMiddleware.IsSkipped(path)
    requires AuthService.GetTokenExpiry(codec, token).Some? && now < AuthService.GetTokenExpiry(codec, token).value
    ensures
      var after := AuthController.Logout(AuthService.EmptyCache, codec, Bearer.Scheme + token, now).state;
      && TokenValidationMiddleware.InvokeAsync(path, Bearer.Scheme + token, after, now) == TokenValidationMiddleware.Reject401
      && TokenValidationMiddleware.InvokeAsync(path, "bearer " + token, after, now) == TokenValidationMiddleware.CallNext
  {
    Bearer.NoSpaceNoScheme(token);
    Bearer.ExtractAfterScheme(token);
    Bearer.LowercaseSchemeKept(token);
    assert "bearer " + token != token by {
      assert |"bearer " + token| != |token|;
    }
  }

  /**
   * As written, a logged-out token is passed on by the gate when sent as
   * `bearer <token>` or `Bearer  <token>`: the lookup then uses a text other
   * than the token.
   */
  lemma SchemeVariantsBypassGate(codec: Codec, token: string, now: Time, path: string)
    requires ' ' !in token && token != ""
    requires !TokenValidationMiddleware.IsSkipped(path)
    requires AuthService.GetTokenExpiry(codec, token).Some? && now < AuthService.GetTokenExpiry(codec, token).value
    ensures
      var after := AuthController.Logout(AuthService.EmptyCache, codec, Bearer.Scheme + token, now).state;
      && AuthService.IsTokenInvalidated(after, token, now)
      && TokenValidationMiddleware.InvokeAsync(path, "bearer " + token, after, now) == TokenValidationMiddleware.CallNext
      && TokenValidationMiddleware.InvokeAsync(path, "Bearer  " + token, after, now) == TokenValidationMiddleware.CallNext
  {
    var after := AuthController.Logout(AuthService.EmptyCache, codec, Bearer.Scheme + token, now).state;
    LowercaseSchemeSkipsBlacklist(codec, token, now, path);
    Bearer.NoSpaceNoScheme(token);
    Bearer.ExtractAfterScheme(token);
    assert AuthService.IsTokenInvalidated(after, token, now);
    Bearer.DoubledSpaceKept(token);
    assert " " + token != token by {
      assert |" " + token| != |token|;
    }
  }

  /** The gate with the corrected extraction refuses the logged-out token under both variants. */
  lemma CorrectedGateStopsSchemeVariants(codec: Codec, token: string, now: Time, path: string)
    requires ' ' !in token && token != ""
    requires !Text.IsWhite(token[0]) && !Text.IsWhite(token[|token| - 1])
    requires !TokenValidationMiddleware.IsSkipped(path)
    requires AuthService.GetTokenExpiry(codec, token).Some? && now < AuthService.GetTokenExpiry(codec, token).value
    ensures
      var after := AuthController.Logout(AuthService.EmptyCache, codec, Bearer.Scheme + token, now).state;
      && TokenValidationMiddleware.InvokeAsyncSchemeCorrected(path, "bearer " + token, after, now)
         == TokenValidationMiddleware.Reject401
      && TokenValidationMiddleware.InvokeAsyncSchemeCorrected(path, "Bearer  " + token, after, now)
         == TokenValidationMiddleware.Reject401
  {
    SchemeVariantsBypassGate(codec, token, now, path);
    var after := AuthController.Logout(AuthService.EmptyCache, codec, Bearer.Scheme + token, now).state;
    BothVariantsStopped(path, token, after, now);
  }

  /** The two header spellings, against any cache in which the token is revoked. */
  lemma BothVariantsStopped(path: string, token: string, cache: AuthService.Cache, now: Time)
    requires token != "" && !Text.IsWhite(token[0]) && !Text.IsWhite(token[|token| - 1])
    requires !TokenValidationMiddleware.IsSkipped(path)
    requires AuthService.IsTokenInvalidated(cache, token, now)
    ensures TokenValidationMiddleware.InvokeAsyncSchemeCorrected(path, "bearer " + token, cache, now)
         == TokenValidationMiddleware.Reject401
    ensures TokenValidationMiddleware.InvokeAsyncSchemeCorrected(path, "Bearer  " + token, cache, now)
         == TokenValidationMiddleware.Reject401
  {
    assert "bearer " + "" + token == "bearer " + token;
    assert "Bearer " + " " + token == "Bearer  " + token;
    TokenValidationMiddleware.CorrectedSchemeStopsRevoked(path, "bearer ", "", token, cache, now);
    TokenValidationMiddleware.CorrectedSchemeStopsRevoked(path, "Bearer ", " ", token, cache, now);
  }

  /**
   * As written, the administrator level cannot be registered: on a fresh
   * database a registration asking for level 0 answers 200, yet the stored
   * row, the login reply and the token's role claim all carry level 1.
   */
  lemma AdminLevelRegistersAsDefault(hasher: Passwords.Hasher, config: AuthService.JwtConfig, codec: Codec,
                                     salt: string, now: Time)
    requires Passwords.Sound(hasher) && AuthService.KeyConfigured(config)
    requires Sound(codec) && AuthService.IssuableAt(now)
    ensures
      var s := AuthController.Register(Users.EmptyStore, hasher,
                 AuthController.UserCreateDto("admin", "secret", "admin@example.com", 0), salt);
      var r := AuthController.Login(s.state, hasher, config, codec, AuthController.UserLoginDto("admin", "secret"), now);
      && s.reply.StatusCode() == 200
      && s.state.users[0].level == Users.DefaultLevel
      && r.StatusCode() == 200
      && r.body.user.level == Users.DefaultLevel
      && codec.read(r.body.token).Some?
      && Decimal.TryParseInt32(codec.read(r.body.token).value.role) == Some(Users.DefaultLevel)
  {
    var s := AuthController.Register(Users.EmptyStore, hasher,
               AuthController.UserCreateDto("admin", "secret", "admin@example.com", 0), salt);
    assert !Users.AnyUsername(Users.EmptyStore, "admin") && !Users.AnyEmail(Users.EmptyStore, "admin@example.com");
    var u := s.state.users[0];
    assert Users.FindByUsername(s.state, "admin") == Some(u) by {
      Users.FindStoredUser(s.state, 0);
    }
    var claims := AuthService.TokenClaims(config, u, now, "");
    assert codec.read(codec.write(claims, config.key.value)) == Some(claims);
  }

  /**
   * As written, the blacklist entry lapses at the token's expiry, while the
   * bearer authentication after the gate accepts the token for the default
   * skew beyond it: throughout that window a logged-out token passes the
   * gate on a gated route and its lifetime is accepted.
   */
  lemma RevokedTokenAuthenticatesWithinSkew(codec: Codec, token: string, now: Time, path: string)
    requires ' ' !in token && token != ""
    requires !TokenValidationMiddleware.IsSkipped(path)
    requires codec.read(token).Some? && codec.read(token).value.exp.Some?
    requires now < codec.read(token).value.exp.value
    ensures
      var exp := codec.read(token).value.exp.value;
      var after := AuthController.Logout(AuthService.EmptyCache, codec, Bearer.Scheme + token, now).state;
      && AuthService.IsTokenInvalidated(after, token, now)
      && forall at :: exp <= at <= exp + AuthService.DefaultClockSkew ==>
           && TokenValidationMiddleware.InvokeAsync(path, Bearer.Scheme + token, after, at) == TokenValidationMiddleware.CallNext
           && AuthService.LifetimeAccepts(codec, token, at)
  {
    Bearer.NoSpaceNoScheme(token);
    Bearer.ExtractAfterScheme(token);
  }

  /**
   * With revocation covering the skew, the gate answers 401 to the logged-out
   * token at every later instant the lifetime test would still accept it.
   */
  lemma CoveringSkewStopsRevokedToken(codec: Codec, token: string, now: Time, path: string)
    requires ' ' !in token && token != ""
    requires !TokenValidationMiddleware.IsSkipped(path)
    ensures
      var after := AuthService.InvalidateTokenCoveringSkew(AuthService.EmptyCache, codec, token, now);
      forall at :: now <= at && AuthService.LifetimeAccepts(codec, token, at) ==>
        TokenValidationMiddleware.InvokeAsync(path, Bearer.Scheme + token, after, at) == TokenValidationMiddleware.Reject401
  {
    Bearer.NoSpaceNoScheme(token);
    Bearer.ExtractAfterScheme(token);
  }
}

=== FILE: text.dfy ===
/**
 * Text helpers shared by several modules: ordinal case-insensitive comparison
 * (`StringComparison.OrdinalIgnoreCase`), used by path matching and by the
 * scheme test of bearer authentication, and white-space trimming, used by
 * `int.TryParse` and by the bearer authentication's `Trim()`.
 */
module Text {

  /** Upper-case mapping used by the ordinal case-insensitive comparison, on ASCII letters. */
  function ToUpperAscii(c: char): char {
    if 'a' <= c <= 'z' then (c as int - 32) as char else c
  }

  predicate EqualsIgnoreCase(a: string, b: string) {
    |a| == |b| && forall i :: 0 <= i < |a| ==> ToUpperAscii(a[i]) == ToUpperAscii(b[i])
  }

  predicate StartsWithIgnoreCase(s: string, prefix: string) {
    |prefix| <= |s| && EqualsIgnoreCase(s[..|prefix|], prefix)
  }

  // ---------------------------------------------------------------------------
  // Trimming white space

  /**
   * White space for trimming: U+0009 to U+000D and U+0020, the set
   * `NumberStyles.Integer` allows around a number.
   */
  predicate IsWhite(c: char) {
    c == ' ' || '\t' <= c <= '\r'
  }

  /** `TrimStart()`: drops leading white space. */
  function TrimStart(s: string): string
    decreases |s|
  {
    if |s| > 0 && IsWhite(s[0]) then TrimStart(s[1..]) else s
  }

  /** `TrimEnd()`: drops trailing white space. */
  function TrimEnd(s: string): string
    decreases |s|
  {
    if |s| > 0 && IsWhite(s[|s| - 1]) then TrimEnd(s[..|s| - 1]) else s
  }

  /** Trimming only removes characters from the ends. */
  lemma {:induction false} TrimmedIsInfix(s: string)
    ensures exists i, j :: 0 <= i <= j <= |s| && TrimEnd(TrimStart(s)) == s[i..j]
  {
    var i := TrimStartDrops(s);
    var j := TrimEndKeeps(s[i..]);
    assert TrimEnd(TrimStart(s)) == s[i..][..j] == s[i..i + j];
  }

  lemma {:induction false} TrimStartDrops(s: string) returns (i: nat)
    ensures i <= |s| && TrimStart(s) == s[i..]
    decreases |s|
  {
    if |s| > 0 && IsWhite(s[0]) {
      var k := TrimStartDrops(s[1..]);
      i := k + 1;
    } else {
      i := 0;
    }
  }

  lemma {:induction false} TrimEndKeeps(s: string) returns (j: nat)
    ensures j <= |s| && TrimEnd(s) == s[..j]
    decreases |s|
  {
    if |s| > 0 && IsWhite(s[|s| - 1]) {
      j := TrimEndKeeps(s[..|s| - 1]);
    } else {
      j := |s|;
    }
  }

  /** What `TrimStart` leaves does not begin with white space. */
  lemma {:induction false} TrimStartHead(s: string)
    ensures TrimStart(s) != "" ==> !IsWhite(TrimStart(s)[0])
    decreases |s|
  {
    if |s| > 0 && IsWhite(s[0]) {
      TrimStartHead(s[1..]);
    }
  }

  /** What `TrimEnd` leaves does not end with white space. */
  lemma {:induction false} TrimEndLast(s: string)
    ensures TrimEnd(s) != "" ==> !IsWhite(TrimEnd(s)[|TrimEnd(s)| - 1])
    decreases |s|
  {
    if |s| > 0 && IsWhite(s[|s| - 1]) {
      TrimEndLast(s[..|s| - 1]);
    }
  }

  /** `Trim()`: the result has no white space at either end. */
  lemma TrimmedEnds(s: string)
    ensures var t := TrimEnd(TrimStart(s));
      t != "" ==> !IsWhite(t[0]) && !IsWhite(t[|t| - 1])
  {
    var u := TrimStart(s);
    TrimStartHead(s);
    TrimEndLast(u);
    var j := TrimEndKeeps(u);
    if TrimEnd(u) != "" {
      assert TrimEnd(u)[0] == u[0];
    }
  }

  /** White space in front of a text that does not start with any is all `TrimStart` removes. */
  lemma {:induction false} TrimStartWhitePrefix(pad: string, t: string)
    requires forall i :: 0 <= i < |pad| ==> IsWhite(pad[i])
    requires t != "" ==> !IsWhite(t[0])
    ensures TrimStart(pad + t) == t
    decreases |pad|
  {
    if |pad| == 0 {
      assert pad + t == t;
    } else {
      assert (pad + t)[1..] == pad[1..] + t;
      TrimStartWhitePrefix(pad[1..], t);
    }
  }
}

=== FILE: users.dfy ===
/**
 * The user entity and the user table. The table is a sequence in insertion
 * order plus the next identity value; the unique indexes of the database
 * become the invariant `Valid`.
 */
module Users {
  import opened Wrappers
  import Decimal

  /** A row of the Users table. Level 0 is administrator, other values are custom tiers. Id is a 32-bit identity. */
  datatype User = User(id: int, username: string, passwordHash: string, email: string, level: int)

  /** The table: rows in insertion order, and the identity value the next insert receives. */
  datatype Store = Store(users: seq<User>, nextId: int)

  /** A fresh database: no rows, identity seeded at 1. */
  const EmptyStore := Store([], 1)

  /** The primary key and the unique indexes on Username and Email; identities are 32-bit and below the seed. */
  predicate Valid(s: Store) {
    && (forall i :: 0 <= i < |s.users| ==> Decimal.IsInt32(s.users[i].id))
    && (forall i, j :: 0 <= i < j < |s.users| ==>
          && s.users[i].id != s.users[j].id
          && s.users[i].username != s.users[j].username
          && s.users[i].email != s.users[j].email)
    && (forall i :: 0 <= i < |s.users| ==> s.users[i].id < s.nextId)
  }

  /** Index of the first row satisfying `p`, the order `FirstOrDefault` follows. */
  function FirstWhere(users: seq<User>, p: User -> bool): (r: Option<nat>)
    ensures r.Some? ==> r.value < |users| && p(users[r.value])
    ensures r.Some? ==> forall j :: 0 <= j < r.value ==> !p(users[j])
    ensures r.None? ==> forall j :: 0 <= j < |users| ==> !p(users[j])
    decreases |users|
  {
    if |users| == 0 then None
    else if p(users[0]) then Some(0)
    else match FirstWhere(users[1..], p)
      case None => None
      case Some(i) => Some(i + 1)
  }

  function Find(s: Store, p: User -> bool): (r: Option<User>)
    ensures r.Some? ==> r.value in s.users && p(r.value)
    ensures r.None? ==> forall u :: u in s.users ==> !p(u)
  {
    match FirstWhere(s.users, p)
    case None => None
    case Some(i) => Some(s.users[i])
  }

  /**
   * `Users.FirstOrDefaultAsync(x => x.Username == name)`: finds a row exactly
   * when `AnyAsync` on the same name would report one, and the row it finds
   * carries that name.
   */
  function FindByUsername(s: Store, name: string): (r: Option<User>)
    ensures r.Some? <==> AnyUsername(s, name)
    ensures r.Some? ==> r.value in s.users && r.value.username == name
  {
    Find(s, (u: User) => u.username == name)
  }

  /** `Users.FindAsync(id)`: the row with that primary key, or nothing when no row has it. */
  function FindById(s: Store, id: int): (r: Option<User>)
    ensures r.Some? ==> r.value in s.users && r.value.id == id
    ensures r.None? <==> forall u :: u in s.users ==> u.id != id
  {
    Find(s, (u: User) => u.id == id)
  }

  /** `Users.AnyAsync(x => x.Username == name)`: some stored row carries the name. */
  function AnyUsername(s: Store, name: string): (found: bool)
    ensures found <==> exists u :: u in s.users && u.username == name
  {
    exists i :: 0 <= i < |s.users| && s.users[i].username == name
  }

  /** `Users.AnyAsync(x => x.Email == email)`: some stored row carries the email. */
  function AnyEmail(s: Store, email: string): (found: bool)
    ensures found <==> exists u :: u in s.users && u.email == email
  {
    exists i :: 0 <= i < |s.users| && s.users[i].email == email
  }

  /** The length limit of the Username column. */
  const UsernameMaxLength := 100

  /**
   * The width of the Email column. It declares no length, and as an indexed
   * string it gets the SQL Server provider's key width, `nvarchar(450)`.
   */
  const EmailMaxLength := 450

  /** The database default of the Level column. */
  const DefaultLevel := 1

  /**
   * The level a new row ends up with. The Level column has a database default,
   * and the insert leaves out a property that holds its type's default value
   * (0 for `int`), so the database fills in its own default instead: a
   * requested level 0 is stored as `DefaultLevel`, any other level as given.
   */
  function StoredLevel(level: int): (stored: int)
    ensures stored != 0
    ensures level != 0 ==> stored == level
    ensures level == 0 ==> stored == DefaultLevel
  {
    if level == 0 then DefaultLevel else level
  }

  /** The table with one row appended under the next identity value. */
  function Append(s: Store, username: string, passwordHash: string, email: string, level: int): (r: Store)
    ensures |r.users| == |s.users| + 1 && r.users[..|s.users|] == s.users
    ensures r.users[|s.users|] == User(s.nextId, username, passwordHash, email, level)
    ensures Valid(s) && Decimal.IsInt32(s.nextId) && !AnyUsername(s, username) && !AnyEmail(s, email) ==> Valid(r)
  {
    Store(s.users + [User(s.nextId, username, passwordHash, email, level)], s.nextId + 1)
  }

  /** Whether the database accepts the row: the identity fits its 32-bit column, the username and the email their widths. */
  predicate Insertable(s: Store, username: string, email: string) {
    Decimal.IsInt32(s.nextId) && |username| <= UsernameMaxLength && |email| <= EmailMaxLength
  }

  /**
   * `Users.Add` followed by `SaveChangesAsync`: the row receives the next
   * identity value, and a level of 0 is replaced by the column default. The
   * insert fails, leaving the table unchanged, once the identity seed has
   * passed the 32-bit range or when the username or the email is longer than
   * its column.
   */
  function Insert(s: Store, username: string, passwordHash: string, email: string, level: int): (r: Option<Store>)
    ensures r.None? <==> !Decimal.IsInt32(s.nextId) || |username| > UsernameMaxLength || |email| > EmailMaxLength
    ensures r.Some? ==> |r.value.users| == |s.users| + 1 && r.value.users[..|s.users|] == s.users
    ensures r.Some? ==> r.value.users[|s.users|] == User(s.nextId, username, passwordHash, email, StoredLevel(level))
    ensures r.Some? ==> r.value.users[|s.users|].level != 0
    ensures r.Some? && Valid(s) && !AnyUsername(s, username) && !AnyEmail(s, email) ==> Valid(r.value)
  {
    if !Insertable(s, username, email) then None
    else Some(Append(s, username, passwordHash, email, StoredLevel(level)))
  }

  /**
   * The insert with the level always written, so that a requested level 0,
   * the administrator level, is stored as 0. It fails and succeeds exactly
   * when `Insert` does, and differs from it only in the level of the new row.
   */
  function InsertKeepingLevel(s: Store, username: string, passwordHash: string, email: string, level: int): (r: Option<Store>)
    ensures r.None? <==> Insert(s, username, passwordHash, email, level).None?
    ensures r.Some? ==> |r.value.users| == |s.users| + 1 && r.value.users[..|s.users|] == s.users
    ensures r.Some? ==> r.value.users[|s.users|] == User(s.nextId, username, passwordHash, email, level)
    ensures level != 0 ==> r == Insert(s, username, passwordHash, email, level)
  {
    if !Insertable(s, username, email) then None
    else Some(Append(s, username, passwordHash, email, level))
  }

  /** In a valid store a stored user is the one found under its own username and under its own id. */
  lemma FindStoredUser(s: Store, i: int)
    requires Valid(s) && 0 <= i < |s.users|
    ensures FindByUsername(s, s.users[i].username) == Some(s.users[i])
    ensures FindById(s, s.users[i].id) == Some(s.users[i])
  {
    var u := s.users[i];
    var byName := FirstWhere(s.users, (x: User) => x.username == u.username);
    var byId := FirstWhere(s.users, (x: User) => x.id == u.id);
    assert byName.Some? && byName.value == i by {
      if byName.None? || byName.value != i {
        assert false;
      }
    }
    assert byId.Some? && byId.value == i by {
      if byId.None? || byId.value != i {
        assert false;
      }
    }
  }
}

=== FILE: wrappers.dfy ===
/** Optional values and results, standing in for the source's nullable returns and exceptions. */
module Wrappers {

  /** A value that may be missing (`null` in the source). */
  datatype Option<+T> = None | Some(value: T) {

    /** The carried value, or `default` when there is none. */
    function GetOr(default: T): T {
      match this
      case Some(v) => v
      case None => default
    }
  }

  /** Either a value or the error the source would have thrown. */
  datatype Result<+T, +E> = Success(value: T) | Failure(error: E)
}
